=== FILE: README.md ===
# Xperience tag helpers, modelled in Dafny

This project models the four ASP.NET Core tag helpers of
XperienceCommunity.TagHelpers. Each helper rewrites the attributes of the
element it is attached to:

- **HTMLConditionalAttributesTagHelper** (`xpc-attr-*`) sets an attribute's value when a condition holds.
  - It has five modes: many/if, many/if-else, if/else, if and if-not.
  - Only the first mode requested runs: a non-empty many list, an if/else with both values non-blank, a true if, or a false if-not.
  - A many mode groups its values by attribute name and joins them with spaces.
  - The joined value is appended to the value the element declares, or replaces it when the declared value is blank.
  - A blank value writes nothing.
- **HTMLConditionalClassesTagHelper** (`xpc-class-*`) does the same for the `class` attribute.
  - Its many/if step and the other modes run independently, one after the other.
  - The many modes follow every class string they append with a space, so a non-empty result ends in a trailing space.
- **ImageTagHelper** (`xpc-image`) renders an `<img>` from an image descriptor.
  - It writes a `src`, resized unless the path mentions `.svg` or `.webp`.
  - It writes either a pixel-density `srcset`, or a width `srcset` together with its `sizes`.
  - It writes `width`/`height` when they are positive, and `alt`/`title`/`loading` unless the element overrides them.
  - Without a descriptor the element is suppressed. A descriptor with a blank path writes an error attribute instead of the image attributes.
- **RichTextWrapTagHelper** (`xpc-rich-text-wrap`) drops its wrapping element when the rich text already opens with an element of the same name followed by a space.

The shared pieces live in their own modules:

- **TagOutput** holds the element's attribute list (`TagHelperAttributeList`) and its operations.
  - `SetAttribute` replaces the first attribute with that name, drops any later ones, or appends when there is none.
  - `RemoveAll` removes every attribute with that name.
  - Names compare ordinal and case-insensitive.
- **Strings** holds the .NET text primitives the helpers rely on.
  - `IsNullOrWhiteSpace`, `TrimStart` and OrdinalIgnoreCase comparison.
  - The StringBuilder "append each part and a separator, then drop the last character" idiom, with its split round trip.
- **ConditionalMerge** holds the merge rule both conditional helpers share.

Every helper is a pure function. It takes the bound properties, the attributes declared on the element, and the output being built, and it returns the new output.

## Model

| member | source | states |
|---|---|---|
| ConditionalMerge.Merge | src/XperienceCommunity.TagHelpers/HTMLConditionalAttributesTagHelper.cs:125-145 | nothing is written exactly when the incoming value is blank; over a blank declared value the incoming value stands alone, otherwise it follows the declared value after one space |
| ConditionalMerge.MergeKeepsBoth | src/XperienceCommunity.TagHelpers/HTMLConditionalAttributesTagHelper.cs:132-144 | a written value is never blank, ends with the incoming value, and keeps a non-blank declared value as its prefix followed by a space |
| ConditionalMerge.DeclaredValue | src/XperienceCommunity.TagHelpers/HTMLConditionalAttributesTagHelper.cs:116-123 | the value the element declares for a name is the first declared attribute of that name, ignoring case, as text, and "" when there is none |
| ConditionalMerge.SetMerged | src/XperienceCommunity.TagHelpers/HTMLConditionalAttributesTagHelper.cs:125-145 | a blank value leaves the list untouched; otherwise exactly one attribute of that name remains, holding the merged value, and every other name keeps its attributes |
| TagOutput.SetAttribute | src/XperienceCommunity.TagHelpers/HTMLConditionalAttributesTagHelper.cs:139-144 | after setting, the name has exactly the one new attribute, every other name is unchanged, and removing the name afterwards gives what removing it before gave |
| TagOutput.RemoveAll | src/XperienceCommunity.TagHelpers/RichTextWrapTagHelper.cs:26 | afterwards no attribute answers to the name in any letter case, and every other name keeps its attributes in order |
| TagOutput.RemovedAreGone | src/XperienceCommunity.TagHelpers/ImageTagHelper.cs:194-200 | removal only drops attributes: whatever remains was there before and does not carry the removed name |
| TagOutput.RemoveAllAppend | src/XperienceCommunity.TagHelpers/ImageTagHelper.cs:194-200 | removal distributes over concatenation of attribute lists |
| Strings.TrimStartSkipsBlankPrefix | src/XperienceCommunity.TagHelpers/RichTextWrapTagHelper.cs:24 | left trimming ignores any whitespace-only prefix |
| Strings.TrimStart | src/XperienceCommunity.TagHelpers/RichTextWrapTagHelper.cs:24 | the trimmed text is a suffix of the input, what was cut is whitespace only, and the result does not start with whitespace |
| Strings.AppendedIsTerminated | src/XperienceCommunity.TagHelpers/ImageTagHelper.cs:150-157 | a StringBuilder loop that appends each part followed by a separator produces the separator-terminated list of the parts |
| Strings.TerminatedTrimIsJoin | src/XperienceCommunity.TagHelpers/ImageTagHelper.cs:175-182 | cutting the last character off a non-empty terminated list gives the parts joined by the separator |
| Strings.SplitJoin | src/XperienceCommunity.TagHelpers/ImageTagHelper.cs:175-182 | splitting a joined list of separator-free parts at the separator gives back exactly the parts, in order |
| ConditionalAttributes.Process | src/XperienceCommunity.TagHelpers/HTMLConditionalAttributesTagHelper.cs:34-114 | the tag name and suppression are unchanged; with no mode the output is unchanged; the running mode's marker is removed; every name that is neither written nor the marker keeps its attributes |
| ConditionalAttributes.DefaultsChangeNothing | src/XperienceCommunity.TagHelpers/HTMLConditionalAttributesTagHelper.cs:19-32 | with every property at its initial value the helper changes nothing |
| ConditionalAttributes.ModeOf | src/XperienceCommunity.TagHelpers/HTMLConditionalAttributesTagHelper.cs:36-113 | the mode that runs is the first requested in the order many/if, many/if-else, if/else, if, if-not; no earlier mode is requested, and none runs when none is requested |
| ConditionalAttributes.AccumulateNames | src/XperienceCommunity.TagHelpers/HTMLConditionalAttributesTagHelper.cs:44-51 | one step of the lookup loop (`Accumulate`) keeps the lookup's keys when the name is already a key, and appends the name as the last key otherwise |
| ConditionalAttributes.AccumulateValues | src/XperienceCommunity.TagHelpers/HTMLConditionalAttributesTagHelper.cs:44-47 | one more value extends the value of its own key by a space and the value, and leaves every other key's value alone |
| ConditionalAttributes.AccumulateNew | src/XperienceCommunity.TagHelpers/HTMLConditionalAttributesTagHelper.cs:48-51 | a name not yet in the lookup becomes its last entry, with the value as written |
| ConditionalAttributes.Group | src/XperienceCommunity.TagHelpers/HTMLConditionalAttributesTagHelper.cs:38-53 | the lookup built by the loop never holds the same key twice |
| ConditionalAttributes.GroupNames | src/XperienceCommunity.TagHelpers/HTMLConditionalAttributesTagHelper.cs:38-53 | the lookup's keys are the assigned names in order of first appearance, each once |
| ConditionalAttributes.GroupValues | src/XperienceCommunity.TagHelpers/HTMLConditionalAttributesTagHelper.cs:38-53 | each key's value is all the values assigned to that name, in input order, joined by single spaces |
| ConditionalAttributes.MergeAll | src/XperienceCommunity.TagHelpers/HTMLConditionalAttributesTagHelper.cs:55-58 | writing the lookup changes no attribute whose name none of the keys matches, ignoring case |
| ConditionalAttributes.MergeAllOutcome | src/XperienceCommunity.TagHelpers/HTMLConditionalAttributesTagHelper.cs:55-58 | a name written once in the pass ends as the merge of its declared value with the written value |
| ConditionalAttributes.ContributionValues | src/XperienceCommunity.TagHelpers/HTMLConditionalAttributesTagHelper.cs:40-42 | the values the many/if mode collects for a name are those of its entries whose condition holds, in order |
| ConditionalAttributes.ChoiceValues | src/XperienceCommunity.TagHelpers/HTMLConditionalAttributesTagHelper.cs:66-70 | the values the many/if-else mode collects for a name are each entry's chosen branch, in order |
| ConditionalAttributes.ManyIfOutcome | src/XperienceCommunity.TagHelpers/HTMLConditionalAttributesTagHelper.cs:36-61 | in many/if mode an attribute that no entry names in another letter case ends as its declared value merged with the space-joined values of its true entries, and the marker is gone |
| ConditionalAttributes.FalseEntryIgnored | src/XperienceCommunity.TagHelpers/HTMLConditionalAttributesTagHelper.cs:40-42 | a many/if entry whose condition is false has no effect while another many/if entry remains |
| ConditionalAttributes.ManyIfElseOutcome | src/XperienceCommunity.TagHelpers/HTMLConditionalAttributesTagHelper.cs:62-88 | in many/if-else mode an attribute that no entry names in another letter case ends as its declared value merged with the space-joined chosen branches of its entries, and the marker is gone |
| ConditionalAttributes.IfElseOutcome | src/XperienceCommunity.TagHelpers/HTMLConditionalAttributesTagHelper.cs:89-103 | in if/else mode the attribute always ends as exactly one attribute holding the declared value merged with the chosen branch, and the marker is gone |
| ConditionalAttributes.IfOutcome | src/XperienceCommunity.TagHelpers/HTMLConditionalAttributesTagHelper.cs:104-108 | in if mode with a true condition the attribute ends as the merge of its declared value with the value, and the marker is gone |
| ConditionalAttributes.IfNotOutcome | src/XperienceCommunity.TagHelpers/HTMLConditionalAttributesTagHelper.cs:109-113 | in if-not mode with a false condition the attribute ends as the merge of its declared value with the value, and the marker is gone |
| ConditionalAttributes.IfNotTrueChangesNothing | src/XperienceCommunity.TagHelpers/HTMLConditionalAttributesTagHelper.cs:109-114 | when no earlier mode runs and the if-not condition holds, the output is left exactly as it was, marker included |
| ConditionalAttributes.LoneFalseEntryExample | src/XperienceCommunity.TagHelpers/HTMLConditionalAttributesTagHelper.cs:36-61 | a lone false many/if entry still selects many/if mode, so `if=(true,"data-x","A")` plus the entry `(false,"data-x","B")` writes no `data-x`, while if alone writes `data-x="A"` |
| ConditionalAttributes.HalfSetIfElseFallsThrough | src/XperienceCommunity.TagHelpers/HTMLConditionalAttributesTagHelper.cs:89 | an if/else entry with a blank branch behaves as if it were absent |
| ConditionalAttributes.ManyIfGroupingExample | src/XperienceCommunity.TagHelpers/HTMLConditionalAttributesTagHelper.cs:36-61 | two true entries for the same attribute with values "1" and "2" write "1 2" |
| ConditionalAttributes.IfBeatsIfNotExample | src/XperienceCommunity.TagHelpers/HTMLConditionalAttributesTagHelper.cs:104-113 | when both the if and if-not conditions would fire, only the if value is written |
| ConditionalAttributes.ManyIfTakesPrecedence | src/XperienceCommunity.TagHelpers/HTMLConditionalAttributesTagHelper.cs:36 | any other helper that agrees on the many/if entries, when there are some, gives the same output: every other property is ignored |
| ConditionalAttributes.ManyIfElseTakesPrecedence | src/XperienceCommunity.TagHelpers/HTMLConditionalAttributesTagHelper.cs:62 | any other helper that agrees on the empty many/if list and the many/if-else entries, when there are some, gives the same output: if/else, if and if-not are ignored |
| ConditionalAttributes.IfElseTakesPrecedence | src/XperienceCommunity.TagHelpers/HTMLConditionalAttributesTagHelper.cs:89 | any other helper that agrees on the empty lists and on an if/else with both branches set gives the same output: if and if-not are ignored |
| ConditionalAttributes.IfTakesPrecedence | src/XperienceCommunity.TagHelpers/HTMLConditionalAttributesTagHelper.cs:104-109 | any other helper that agrees on the empty lists, an if/else that does not run and an if whose condition holds gives the same output: if-not is ignored |
| ConditionalAttributes.CaseDistinctKeysLastWins | src/XperienceCommunity.TagHelpers/HTMLConditionalAttributesTagHelper.cs:38-58 | `data-a` and `DATA-A` are two keys of the case-sensitive lookup; both write the one attribute, and the later key's value stays |
| ConditionalClasses.Process | src/XperienceCommunity.TagHelpers/HTMLConditionalClassesTagHelper.cs:34-100 | the tag name and suppression are unchanged; with neither step the output is unchanged; each step that runs removes its marker |
| ConditionalClasses.Apply | src/XperienceCommunity.TagHelpers/HTMLConditionalClassesTagHelper.cs:55-122 | a step that does not run changes nothing; otherwise `class` becomes the merge of the declared classes with the step's classes (`SetClasses`), that step's marker is gone, and every other name keeps its attributes |
| ConditionalClasses.ProcessKeepsOthers | src/XperienceCommunity.TagHelpers/HTMLConditionalClassesTagHelper.cs:34-122 | every attribute other than `class` and the markers of the steps that ran keeps its attributes; the marker of a step that did not run stays |
| ConditionalClasses.ChainStep | src/XperienceCommunity.TagHelpers/HTMLConditionalClassesTagHelper.cs:59-99 | the chain step that runs is the first chain mode requested, in the order many/if-else, if/else, if, if-not, and it carries that mode's classes; none runs when no chain mode is requested |
| ConditionalClasses.ProcessClasses | src/XperienceCommunity.TagHelpers/HTMLConditionalClassesTagHelper.cs:36-99 | `class` ends as the many/if merge followed by the chain merge, each against the declared classes read once before both |
| ConditionalClasses.ChainOutcome | src/XperienceCommunity.TagHelpers/HTMLConditionalClassesTagHelper.cs:59-99 | with no many/if entries, `class` ends as the declared classes merged with the running chain mode's classes, and that mode's marker is gone |
| ConditionalClasses.DefaultsChangeNothing | src/XperienceCommunity.TagHelpers/HTMLConditionalClassesTagHelper.cs:19-32 | with every property at its initial value the helper changes nothing |
| ConditionalClasses.IfManyClassesAreTerminated | src/XperienceCommunity.TagHelpers/HTMLConditionalClassesTagHelper.cs:44-53 | `IfManyClasses`, the many/if StringBuilder, is the classes of the true entries, each followed by one space |
| ConditionalClasses.IfElseManyClassesAreTerminated | src/XperienceCommunity.TagHelpers/HTMLConditionalClassesTagHelper.cs:61-69 | `IfElseManyClasses`, the many/if-else StringBuilder, is each entry's chosen classes, each followed by one space |
| ConditionalClasses.IfElseManyLength | src/XperienceCommunity.TagHelpers/HTMLConditionalClassesTagHelper.cs:61-69 | the many/if-else class string is as long as the chosen classes plus one space per entry |
| ConditionalClasses.IfManyBlank | src/XperienceCommunity.TagHelpers/HTMLConditionalClassesTagHelper.cs:44-55 | the many/if class string is blank exactly when every true entry's classes are blank |
| ConditionalClasses.IfElseManyBlank | src/XperienceCommunity.TagHelpers/HTMLConditionalClassesTagHelper.cs:61-72 | the many/if-else class string is blank exactly when every chosen branch is blank |
| ConditionalClasses.ManyIfOutcome | src/XperienceCommunity.TagHelpers/HTMLConditionalClassesTagHelper.cs:42-58 | with only many/if present, `class` ends as the declared classes merged with the true entries' classes, space-terminated, and the marker is gone |
| ConditionalClasses.ManyIfBlankKeepsClass | src/XperienceCommunity.TagHelpers/HTMLConditionalClassesTagHelper.cs:55-57 | when no chain mode runs and every true many/if entry has blank classes, `class` is left as it was |
| ConditionalClasses.ManyIfElseOutcome | src/XperienceCommunity.TagHelpers/HTMLConditionalClassesTagHelper.cs:59-76 | once a chosen branch is non-blank, `class` ends as exactly one attribute holding the declared classes merged with the chosen branches, and the markers of the steps that ran are gone |
| ConditionalClasses.ManyIfElseBlankKeepsClass | src/XperienceCommunity.TagHelpers/HTMLConditionalClassesTagHelper.cs:59-76 | when every chosen branch is blank, the many/if-else step leaves `class` as the many/if step left it |
| ConditionalClasses.ChainOverridesManyIf | src/XperienceCommunity.TagHelpers/HTMLConditionalClassesTagHelper.cs:42-99 | when both steps run and the second writes, `class` holds only the declared classes merged with the second step's classes, and both markers are gone |
| ConditionalClasses.IfElseOutcome | src/XperienceCommunity.TagHelpers/HTMLConditionalClassesTagHelper.cs:77-89 | in if/else mode `class` always ends as exactly one attribute holding the declared classes merged with the chosen branch, and the marker is gone |
| ConditionalClasses.IfOutcome | src/XperienceCommunity.TagHelpers/HTMLConditionalClassesTagHelper.cs:90-94 | in if mode with a true condition `class` ends as the merge of the declared classes with the classes, and the marker is gone |
| ConditionalClasses.IfNotOutcome | src/XperienceCommunity.TagHelpers/HTMLConditionalClassesTagHelper.cs:95-99 | in if-not mode with a false condition `class` ends as the merge of the declared classes with the classes, and the marker is gone |
| ConditionalClasses.IfNotTrueChangesNothing | src/XperienceCommunity.TagHelpers/HTMLConditionalClassesTagHelper.cs:95-100 | with no many/if entries, no earlier chain mode running and the if-not condition holding, the output is left exactly as it was |
| ConditionalClasses.ManyIfElseTakesPrecedence | src/XperienceCommunity.TagHelpers/HTMLConditionalClassesTagHelper.cs:59 | any other helper that agrees on the many/if entries and on the many/if-else entries, when there are some, gives the same output: if/else, if and if-not are ignored |
| ConditionalClasses.IfElseTakesPrecedence | src/XperienceCommunity.TagHelpers/HTMLConditionalClassesTagHelper.cs:77 | any other helper that agrees on the many/if entries, the empty many/if-else list and an if/else with both branches set gives the same output: if and if-not are ignored |
| ConditionalClasses.IfTakesPrecedence | src/XperienceCommunity.TagHelpers/HTMLConditionalClassesTagHelper.cs:90 | any other helper that agrees on the many/if entries, the empty many/if-else list, an if/else that does not run and an if whose condition holds gives the same output: if-not is ignored |
| ConditionalClasses.StepsAreIndependent | src/XperienceCommunity.TagHelpers/HTMLConditionalClassesTagHelper.cs:42-99 | the two steps read disjoint properties: the many/if step depends only on the many/if entries, and the chain step on every property except them |
| ConditionalClasses.ManyIfTrailingSpaceExample | src/XperienceCommunity.TagHelpers/HTMLConditionalClassesTagHelper.cs:42-58 | a `btn` button with true entries `a` and `c` ends with class "btn a c ", trailing space included |
| ResponsiveImage.Process | src/XperienceCommunity.TagHelpers/ImageTagHelper.cs:61-86 | without a descriptor the element is suppressed; with one the tag stays, every marker is gone, and either the image attributes are rendered over the restored overrides or the error attribute is written |
| ResponsiveImage.RenderImage | src/XperienceCommunity.TagHelpers/ImageTagHelper.cs:88-141 | a blank path writes only the error attribute; otherwise `src`, `srcset`/`sizes`, the dimensions and the text attributes are rendered as the descriptor and overrides dictate; every marker is removed and nothing else changes |
| ResponsiveImage.Source | src/XperienceCommunity.TagHelpers/ImageTagHelper.cs:100-113 | `src` is the raw path for a path that cannot be constrained, otherwise the resized URL with the responsive lists; only `src`, `srcset` and `sizes` change |
| ResponsiveImage.Dimensions | src/XperienceCommunity.TagHelpers/ImageTagHelper.cs:115-123 | a positive width or height is written as an integer and a non-positive one leaves the attribute as it was; only `width` and `height` change |
| ResponsiveImage.TextAttributes | src/XperienceCommunity.TagHelpers/ImageTagHelper.cs:125-138 | without an override, `alt` and `title` come from the descriptor and `loading` is `lazy`; an override keeps the attribute as it was; only those three names change |
| ResponsiveImage.DescribedRenders | src/XperienceCommunity.TagHelpers/ImageTagHelper.cs:99-138 | the image attributes written in sequence each survive the later writes, so the final list renders all of them |
| ResponsiveImage.RendersPastMarkers | src/XperienceCommunity.TagHelpers/ImageTagHelper.cs:140 | clearing the markers does not disturb any rendered image attribute |
| ResponsiveImage.SetSrcSetLists | src/XperienceCommunity.TagHelpers/ImageTagHelper.cs:143-192 | `srcset` and `sizes` are each set to their responsive list when it is non-empty and left alone otherwise; nothing else changes |
| ResponsiveImage.ResponsiveLists | src/XperienceCommunity.TagHelpers/ImageTagHelper.cs:148-173 | `srcset` is produced unless both lists are empty; `sizes` is produced only in width mode, never without `srcset`, and never when density entries exist |
| ResponsiveImage.BuildersTrimToLists | src/XperienceCommunity.TagHelpers/ImageTagHelper.cs:145-191 | the StringBuilder contents with the trailing comma cut off are exactly the candidates joined by commas, and empty builders set nothing |
| ResponsiveImage.DensitySrcSetSplits | src/XperienceCommunity.TagHelpers/ImageTagHelper.cs:148-158 | in density mode `srcset` splits back at commas into one candidate per entry, in order, and `sizes` is not written |
| ResponsiveImage.WidthListsSplit | src/XperienceCommunity.TagHelpers/ImageTagHelper.cs:159-173 | in width mode `srcset` and `sizes` split back at commas into one candidate and one media condition per entry, so the two lists pair up entry by entry |
| ResponsiveImage.NoCommaInIntegerText | src/XperienceCommunity.TagHelpers/ImageTagHelper.cs:166 | the text of an integer never contains a comma, so it cannot break the comma-separated lists |
| ResponsiveImage.ClearMarkers | src/XperienceCommunity.TagHelpers/ImageTagHelper.cs:194-200 | afterwards none of the four markers remains, and every other name keeps its attributes |
| ResponsiveImage.CopyHtmlAttribute | src/XperienceCommunity.TagHelpers/ImageTagHelper.cs:65 | an attribute already on the output is kept; one missing from the output is restored from the declared attributes; nothing else changes |
| ResponsiveImage.CopyOverrides | src/XperienceCommunity.TagHelpers/ImageTagHelper.cs:63-76 | each non-blank override restores the element's own `alt`, `title` or `loading`, and every other name is unchanged |
| ResponsiveImage.NoImageSuppresses | src/XperienceCommunity.TagHelpers/ImageTagHelper.cs:78-85 | without a descriptor the element is suppressed, and only the overridden text attributes can differ from the input |
| ResponsiveImage.MissingPathWritesOnlyError | src/XperienceCommunity.TagHelpers/ImageTagHelper.cs:90-97 | a blank path writes the error message and leaves `src`, `srcset`, `sizes`, `width` and `height` as they were, with the markers gone |
| ResponsiveImage.OverrideSurvives | src/XperienceCommunity.TagHelpers/ImageTagHelper.cs:63-66 | a non-blank `Alt` override keeps the element's own `alt` through rendering |
| ResponsiveImage.DensityModeIgnoresSizes | src/XperienceCommunity.TagHelpers/ImageTagHelper.cs:148-159 | when density entries are given, the width entries make no difference at all |
| ResponsiveImage.SubstringNotExtensionExample | src/XperienceCommunity.TagHelpers/ImageTagHelper.cs:100 | the skip test is a substring test, so `a.svg.png` skips resizing although it is a PNG |
| ResponsiveImage.MentionSkips | src/XperienceCommunity.TagHelpers/ImageTagHelper.cs:100 | `SkipsConstraining` holds for any path mentioning `.svg` or `.webp` anywhere, in any letter case, so such a path is never constrained |
| ResponsiveImage.SvgKeepsRawPathExample | src/XperienceCommunity.TagHelpers/ImageTagHelper.cs:100-105 | for a path mentioning `.svg`, `src` is the path itself and not a resized URL |
| ResponsiveImage.WidthModeSizesExample | src/XperienceCommunity.TagHelpers/ImageTagHelper.cs:159-173 | width entries (320, 640px) and (640, 1280px) produce `sizes` "(max-width: 640px) 320px,(max-width: 1280px) 640px" |
| RichTextWrap.Process | src/XperienceCommunity.TagHelpers/RichTextWrapTagHelper.cs:20-39 | the marker is always removed, every other name keeps its attributes, suppression is unchanged, and the tag name is either kept or dropped |
| RichTextWrap.DroppedIff | src/XperienceCommunity.TagHelpers/RichTextWrapTagHelper.cs:22-38 | the wrapper is dropped exactly when the content, after some whitespace, opens with "<", the wrapper's name and a space in any letter case; otherwise it is kept |
| RichTextWrap.AngleGuardIsImplied | src/XperienceCommunity.TagHelpers/RichTextWrapTagHelper.cs:28-35 | with `StartsWith("<")` read as an ordinal test, that test never decides the outcome, because the opening test already implies it |
| RichTextWrap.LeadingWhitespaceIgnored | src/XperienceCommunity.TagHelpers/RichTextWrapTagHelper.cs:24 | whitespace before the content never changes the result |
| RichTextWrap.NoElementKeepsWrapper | src/XperienceCommunity.TagHelpers/RichTextWrapTagHelper.cs:28-31 | content that does not open with "<" only loses the marker |
| RichTextWrap.OnlyMarkerAndTagChange | src/XperienceCommunity.TagHelpers/RichTextWrapTagHelper.cs:26-37 | apart from removing the marker and possibly the tag name, the output is untouched |
| RichTextWrap.ParagraphWithoutAttributesKept | src/XperienceCommunity.TagHelpers/RichTextWrapTagHelper.cs:33-37 | `<p>hi</p>` inside a `p` wrapper keeps the wrapper, because no space follows the name |
| RichTextWrap.LongerNameKept | src/XperienceCommunity.TagHelpers/RichTextWrapTagHelper.cs:33-37 | `<divider x>` inside a `div` wrapper keeps the wrapper |
| RichTextWrap.SameElementDropped | src/XperienceCommunity.TagHelpers/RichTextWrapTagHelper.cs:22-37 | indented `<P class="x">` inside a `p` wrapper drops the wrapper, whatever the letter case |
| RichTextWrap.PlainTextKept | src/XperienceCommunity.TagHelpers/RichTextWrapTagHelper.cs:28-31 | text that does not open with an element keeps the wrapper |
| RichTextWrap.OtherElementKept | src/XperienceCommunity.TagHelpers/RichTextWrapTagHelper.cs:33-37 | `<span>` inside a `p` wrapper keeps the wrapper |

## Left out

- Razor's dispatch is not modelled. The HtmlTargetElement lists, which decide whether a helper runs at all, are outside the model. Each helper is modelled as if it runs. Neither conditional helper lists its own `*-if-many` marker among its targets, so that marker alone does not make a helper run; the model still gives the mode its full behaviour.
- Tag helper `Order` is left out. The model looks at one helper at a time.
- `FileUrl(...).WithSizeConstraint(...).RelativePath` and the formatting of the `double` density factor belong to Kentico and .NET and are not visible here. They are the `resize` and `formatFactor` parameters of `ImageService`. A size constraint other than `Empty` and `MaxWidthOrHeight` is passed to `resize` unread, so it is one opaque `Bound` case. `NoCommaInIntegerText` covers only the integer parts of a candidate.
- The `srcset` and `sizes` bound properties of the image helper are modelled by their meaning: density entries and width entries. How the attribute names map onto the two properties is left out.
- The width-mode loop fills two StringBuilders in one pass. The model builds each list with its own loop over the same entries; the two forms agree because the builders share no state.
- `GetString` for attribute values other than strings, integers and null (`HtmlString`, other objects) is left out. `DisplayText` covers those three.
- ResponsiveImage.CopyHtmlAttribute: a restored attribute is placed after the output's attributes, not at the framework's original index. The framework's exception when the element declares no attribute of that name is not modelled: nothing is restored in that case.
- Child content is awaited asynchronously in the rich text helper. It is a plain `string` argument here, and HTML encoding is not modelled.
- ConditionalAttributes.GroupNames: the `Dictionary<string, string>` lookup is assumed to enumerate keys in first-insertion order, which holds for a dictionary that is only ever added to; .NET does not promise it.
- `StringComparison.OrdinalIgnoreCase` is modelled with ASCII case folding only. Letters outside ASCII compare exactly.
- Integers are written in the invariant culture. The culture-sensitive `StartsWith("<")` of the rich text helper is modelled as an ordinal test. `RichTextWrap.AngleGuardIsImplied` shows that this ordinal test cannot change the result; it says nothing about culture-specific comparison.
- `SuppressOutput` is modelled as dropping the tag name and marking the output suppressed. Clearing the pre- and post-content is left out.
- Logging, dependency injection and the remaining Razor plumbing of the repository are not part of this model.

=== FILE: conditional_attributes.dfy ===
/** `HTMLConditionalAttributesTagHelper`: sets or appends named attribute
    values chosen by conditions, in one of five modes of which at most one
    runs per element. */
module ConditionalAttributes {
  import opened Strings
  import opened TagOutput
  import opened ConditionalMerge

  const IfMarker := "xpc-attr-if"
  const IfNotMarker := "xpc-attr-if-not"
  const IfElseMarker := "xpc-attr-if-else"
  const IfManyMarker := "xpc-attr-if-many"
  const IfElseManyMarker := "xpc-attr-if-else-many"

  /** (Condition, AttributeName, Value) */
  datatype IfEntry = IfEntry(condition: bool, name: string, value: string)

  /** (Condition, AttributeName, ValueIf, ValueIfNot) */
  datatype EitherEntry = EitherEntry(condition: bool, name: string, valueIf: string, valueIfNot: string) {
    function Selected(): string {
      if condition then valueIf else valueIfNot
    }

    /** The if/else mode only runs when both branches hold something. */
    predicate BothSet() {
      !IsBlank(valueIf) && !IsBlank(valueIfNot)
    }
  }

  /** The helper's bound properties. */
  datatype Helper = Helper(
    ifOne: IfEntry,
    ifNot: IfEntry,
    ifEither: EitherEntry,
    ifMany: seq<IfEntry>,
    ifElseMany: seq<EitherEntry>)

  /** The property initialisers: what the helper sees when no marker is given. */
  const Defaults := Helper(IfEntry(false, "", ""), IfEntry(true, "", ""), EitherEntry(false, "", "", ""), [], [])

  datatype Mode = ManyIf | ManyIfElse | IfElse | If | IfNot | Idle

  /** Whether the bound properties ask for mode `m`: a non-empty list, an
      if/else with both branches set, a true `If`, a false `IfNot`. */
  predicate Requested(h: Helper, m: Mode) {
    match m
    case ManyIf => |h.ifMany| > 0
    case ManyIfElse => |h.ifElseMany| > 0
    case IfElse => h.ifEither.BothSet()
    case If => h.ifOne.condition
    case IfNot => !h.ifNot.condition
    case Idle => false
  }

  /** A mode's place in the `if / else if` chain of `Process`. */
  function Rank(m: Mode): nat {
    match m
    case ManyIf => 0
    case ManyIfElse => 1
    case IfElse => 2
    case If => 3
    case IfNot => 4
    case Idle => 5
  }

  /** The `if / else if` chain of `Process`: the mode that runs is the first
      one requested, and `Idle` when none is. */
  function ModeOf(h: Helper): (m: Mode)
    ensures m == Idle || Requested(h, m)
    ensures forall e: Mode :: Rank(e) < Rank(m) ==> !Requested(h, e)
  {
    if |h.ifMany| > 0 then ManyIf
    else if |h.ifElseMany| > 0 then ManyIfElse
    else if h.ifEither.BothSet() then IfElse
    else if h.ifOne.condition then If
    else if !h.ifNot.condition then IfNot
    else Idle
  }

  /** The marker attribute a mode removes once it has run. */
  function Marker(m: Mode): string
    requires m != Idle
  {
    match m
    case ManyIf => IfManyMarker
    case ManyIfElse => IfElseManyMarker
    case IfElse => IfElseMarker
    case If => IfMarker
    case IfNot => IfNotMarker
  }

  /** One value destined for one attribute name. */
  datatype Assignment = Assignment(name: string, value: string)

  function NamesOf(xs: seq<Assignment>): (r: seq<string>)
    ensures |r| == |xs| && forall i | 0 <= i < |xs| :: r[i] == xs[i].name
  {
    seq(|xs|, i requires 0 <= i < |xs| => xs[i].name)
  }

  predicate Distinct(names: seq<string>) {
    forall i, j | 0 <= i < j < |names| :: names[i] != names[j]
  }

  /** The values the many/if mode keeps: those of entries whose condition holds, in order. */
  function Contributions(entries: seq<IfEntry>): seq<Assignment>
  {
    if |entries| == 0 then []
    else
      var e := entries[|entries| - 1];
      Contributions(entries[..|entries| - 1]) + (if e.condition then [Assignment(e.name, e.value)] else [])
  }

  /** The values the many/if-else mode keeps: one per entry, its selected branch. */
  function Choices(entries: seq<EitherEntry>): seq<Assignment>
  {
    seq(|entries|, i requires 0 <= i < |entries| => Assignment(entries[i].name, entries[i].Selected()))
  }

  /** One step of the lookup loop: a name already present gets " " and the
      value appended, a new name is added at the end. Keys compare
      case-sensitively (the default `Dictionary<string, string>` comparer). */
  function Accumulate(lookup: seq<Assignment>, x: Assignment): seq<Assignment>
  {
    if |lookup| == 0 then [x]
    else if lookup[0].name == x.name then [Assignment(x.name, lookup[0].value + " " + x.value)] + lookup[1..]
    else [lookup[0]] + Accumulate(lookup[1..], x)
  }

  /** A known name keeps the key list; a new one is appended to it. */
  lemma {:induction false} AccumulateNames(lookup: seq<Assignment>, x: Assignment)
    ensures NamesOf(Accumulate(lookup, x)) ==
      if x.name in NamesOf(lookup) then NamesOf(lookup) else NamesOf(lookup) + [x.name]
  {
    var r := Accumulate(lookup, x);
    if |lookup| == 0 {
    } else if lookup[0].name == x.name {
      assert NamesOf(r) == NamesOf(lookup);
    } else {
      AccumulateNames(lookup[1..], x);
      assert NamesOf(lookup[1..]) == NamesOf(lookup)[1..];
      assert NamesOf(r) == [lookup[0].name] + NamesOf(Accumulate(lookup[1..], x));
      assert x.name in NamesOf(lookup) <==> x.name in NamesOf(lookup[1..]);
    }
  }

  /** The entry with the step's name gains " " and the value; the others keep theirs. */
  lemma {:induction false} AccumulateValues(lookup: seq<Assignment>, x: Assignment, i: nat)
    requires Distinct(NamesOf(lookup)) && i < |lookup|
    ensures i < |Accumulate(lookup, x)|
    ensures Accumulate(lookup, x)[i].value ==
      if lookup[i].name == x.name then lookup[i].value + " " + x.value else lookup[i].value
  {
    if lookup[0].name != x.name && i > 0 {
      assert NamesOf(lookup[1..]) == NamesOf(lookup)[1..];
      AccumulateValues(lookup[1..], x, i - 1);
    } else if i > 0 {
      assert NamesOf(lookup)[0] != NamesOf(lookup)[i];
    }
  }

  /** A name not yet present lands at the end, as given. */
  lemma {:induction false} AccumulateNew(lookup: seq<Assignment>, x: Assignment)
    requires x.name !in NamesOf(lookup)
    ensures |Accumulate(lookup, x)| == |lookup| + 1 && Accumulate(lookup, x)[|lookup|] == x
  {
    if |lookup| > 0 {
      assert lookup[0].name != x.name;
      assert x.name !in NamesOf(lookup[1..]) by {
        assert NamesOf(lookup[1..]) == NamesOf(lookup)[1..];
      }
      AccumulateNew(lookup[1..], x);
    }
  }

  /** The lookup keeps each key once. */
  lemma AccumulateDistinct(lookup: seq<Assignment>, x: Assignment)
    requires Distinct(NamesOf(lookup))
    ensures Distinct(NamesOf(Accumulate(lookup, x)))
  {
    AccumulateNames(lookup, x);
  }

  /** The lookup dictionary after the loop, in first-seen key order. */
  function Group(xs: seq<Assignment>): (r: seq<Assignment>)
    ensures Distinct(NamesOf(r))
  {
    if |xs| == 0 then []
    else
      var g := Group(xs[..|xs| - 1]);
      AccumulateDistinct(g, xs[|xs| - 1]);
      Accumulate(g, xs[|xs| - 1])
  }

  /** Reference definition: the names of `xs`, each once, in order of first appearance. */
  function FirstSeen(xs: seq<Assignment>): seq<string>
  {
    if |xs| == 0 then []
    else
      var k := xs[|xs| - 1].name;
      if k in NamesOf(xs[..|xs| - 1]) then FirstSeen(xs[..|xs| - 1]) else FirstSeen(xs[..|xs| - 1]) + [k]
  }

  /** Reference definition: the values given for `k`, in input order. */
  function ValuesFor(xs: seq<Assignment>, k: string): seq<string>
  {
    if |xs| == 0 then []
    else
      var x := xs[|xs| - 1];
      ValuesFor(xs[..|xs| - 1], k) + (if x.name == k then [x.value] else [])
  }

  lemma ValuesForSnoc(xs: seq<Assignment>, x: Assignment, k: string)
    ensures ValuesFor(xs + [x], k) == ValuesFor(xs, k) + (if x.name == k then [x.value] else [])
  {
    assert (xs + [x])[..|xs|] == xs;
  }

  lemma {:induction false} ValuesForMentioned(xs: seq<Assignment>, k: string)
    ensures |ValuesFor(xs, k)| > 0 <==> k in NamesOf(xs)
  {
    if |xs| > 0 {
      var init := xs[..|xs| - 1];
      ValuesForMentioned(init, k);
      assert NamesOf(xs) == NamesOf(init) + [xs[|xs| - 1].name];
    }
  }

  lemma {:induction false} FirstSeenMembers(xs: seq<Assignment>, k: string)
    ensures k in FirstSeen(xs) <==> k in NamesOf(xs)
  {
    if |xs| > 0 {
      var init := xs[..|xs| - 1];
      FirstSeenMembers(init, k);
      assert NamesOf(xs) == NamesOf(init) + [xs[|xs| - 1].name];
    }
  }

  /** Grouping keeps one entry per distinct name, in first-seen order. */
  lemma {:induction false} GroupNames(xs: seq<Assignment>)
    ensures NamesOf(Group(xs)) == FirstSeen(xs)
  {
    if |xs| > 0 {
      var init := xs[..|xs| - 1];
      GroupNames(init);
      AccumulateNames(Group(init), xs[|xs| - 1]);
      FirstSeenMembers(init, xs[|xs| - 1].name);
    }
  }

  /** Each grouped name holds its values joined by single spaces, in input order. */
  lemma {:induction false} GroupValues(xs: seq<Assignment>)
    ensures forall i | 0 <= i < |Group(xs)| :: Group(xs)[i].value == Join(ValuesFor(xs, Group(xs)[i].name), ' ')
  {
    if |xs| > 0 {
      var init := xs[..|xs| - 1];
      var x := xs[|xs| - 1];
      assert xs == init + [x];
      GroupValues(init);
      GroupNames(init);
      GroupValueStep(init, x, Group(init), Group(xs));
    }
  }

  /** Every entry of `g` holds the values `xs` gives for its name, joined by spaces. */
  predicate ValuesGrouped(xs: seq<Assignment>, g: seq<Assignment>) {
    forall j | 0 <= j < |g| :: g[j].value == Join(ValuesFor(xs, g[j].name), ' ')
  }

  /** The inductive step of `GroupValues`: one more entry through the lookup loop. */
  lemma GroupValueStep(init: seq<Assignment>, x: Assignment, g: seq<Assignment>, r: seq<Assignment>)
    requires Distinct(NamesOf(g)) && r == Accumulate(g, x)
    requires NamesOf(g) == FirstSeen(init)
    requires ValuesGrouped(init, g)
    ensures ValuesGrouped(init + [x], r)
  {
    forall i | 0 <= i < |r|
      ensures r[i].value == Join(ValuesFor(init + [x], r[i].name), ' ')
    {
      GroupValueAt(init, x, g, r, i);
    }
  }

  lemma GroupValueAt(init: seq<Assignment>, x: Assignment, g: seq<Assignment>, r: seq<Assignment>, i: nat)
    requires Distinct(NamesOf(g)) && r == Accumulate(g, x)
    requires NamesOf(g) == FirstSeen(init)
    requires ValuesGrouped(init, g)
    requires i < |r|
    ensures r[i].value == Join(ValuesFor(init + [x], r[i].name), ' ')
  {
    if i < |g| {
      ExistingKeyStep(init, x, g, r, i);
    } else {
      NewKeyAt(g, x, r, i);
      FirstSeenMembers(init, x.name);
      NewKeyStep(init, x);
    }
  }

  /** An index past the old lookup can only be the entry just added. */
  lemma NewKeyAt(g: seq<Assignment>, x: Assignment, r: seq<Assignment>, i: nat)
    requires r == Accumulate(g, x)
    requires |g| <= i < |r|
    ensures x.name !in NamesOf(g) && i == |g| && r[i] == x
  {
    AccumulateNames(g, x);
    assert |NamesOf(r)| > |NamesOf(g)|;
    AccumulateNew(g, x);
  }

  /** A name not yet in the lookup: it is added with the new value alone. */
  lemma NewKeyStep(init: seq<Assignment>, x: Assignment)
    requires x.name !in NamesOf(init)
    ensures Join(ValuesFor(init + [x], x.name), ' ') == x.value
  {
    ValuesForMentioned(init, x.name);
    ValuesForSnoc(init, x, x.name);
    assert ValuesFor(init + [x], x.name) == [x.value];
  }

  /** A name already in the lookup: its value gains " " and the new value. */
  lemma ExistingKeyStep(init: seq<Assignment>, x: Assignment, g: seq<Assignment>, r: seq<Assignment>, i: nat)
    requires Distinct(NamesOf(g)) && r == Accumulate(g, x)
    requires NamesOf(g) == FirstSeen(init)
    requires i < |g|
    requires g[i].value == Join(ValuesFor(init, g[i].name), ' ')
    ensures i < |r|
    ensures r[i].name == g[i].name
    ensures r[i].value == Join(ValuesFor(init + [x], g[i].name), ' ')
  {
    var k := g[i].name;
    AccumulateNames(g, x);
    assert NamesOf(r)[i] == NamesOf(g)[i];
    AccumulateValues(g, x, i);
    ValuesForSnoc(init, x, k);
    if k == x.name {
      assert k in NamesOf(g);
      FirstSeenMembers(init, k);
      ValuesForMentioned(init, k);
      JoinSnoc(ValuesFor(init, k), x.value, ' ');
      assert r[i].value == g[i].value + " " + x.value;
    } else {
      assert r[i].value == g[i].value;
      assert ValuesFor(init, k) + [] == ValuesFor(init, k);
      assert ValuesFor(init + [x], k) == ValuesFor(init, k);
    }
  }

  /** Every name the grouping produces was given by some input entry. */
  lemma GroupNamesGiven(xs: seq<Assignment>, i: nat)
    requires i < |Group(xs)|
    ensures Group(xs)[i].name in NamesOf(xs)
  {
    GroupNames(xs);
    assert Group(xs)[i].name in NamesOf(Group(xs));
    FirstSeenMembers(xs, Group(xs)[i].name);
  }

  /** The assignments the running mode merges, in the order it merges them. */
  function Writes(h: Helper): seq<Assignment> {
    match ModeOf(h)
    case ManyIf => Group(Contributions(h.ifMany))
    case ManyIfElse => Group(Choices(h.ifElseMany))
    case IfElse => [Assignment(h.ifEither.name, h.ifEither.Selected())]
    case If => [Assignment(h.ifOne.name, h.ifOne.value)]
    case IfNot => [Assignment(h.ifNot.name, h.ifNot.value)]
    case Idle => []
  }

  /** Merges each assignment, in order, against the value DECLARED on the
      element for its name (not against a value written earlier in the pass). */
  function MergeAll(attrs: seq<Attr>, declared: seq<Attr>, writes: seq<Assignment>): (r: seq<Attr>)
    decreases |writes|
    ensures forall m {:trigger Named(r, m)} ::
      (forall i | 0 <= i < |writes| :: !EqualsIgnoreCase(m, writes[i].name)) ==> Named(r, m) == Named(attrs, m)
  {
    if |writes| == 0 then attrs
    else
      var w := writes[0];
      var next := SetMerged(attrs, w.name, DeclaredValue(declared, w.name), w.value);
      var r := MergeAll(next, declared, writes[1..]);
      assert forall m {:trigger Named(r, m)} ::
        (forall i | 0 <= i < |writes| :: !EqualsIgnoreCase(m, writes[i].name)) ==> Named(r, m) == Named(attrs, m) by {
        forall m | (forall i | 0 <= i < |writes| :: !EqualsIgnoreCase(m, writes[i].name))
          ensures Named(r, m) == Named(attrs, m)
        {
          assert !EqualsIgnoreCase(m, writes[0].name);
          assert forall i | 0 <= i < |writes[1..]| :: !EqualsIgnoreCase(m, writes[1..][i].name) by {
            forall i | 0 <= i < |writes[1..]| ensures !EqualsIgnoreCase(m, writes[1..][i].name) {
              assert writes[1..][i] == writes[i + 1];
            }
          }
        }
      }
      r
  }

  /** A name written once in a pass ends up holding exactly its own merge. */
  lemma {:induction false} MergeAllOutcome(attrs: seq<Attr>, declared: seq<Attr>, writes: seq<Assignment>, j: nat)
    requires j < |writes|
    requires forall i | 0 <= i < |writes| && i != j :: !EqualsIgnoreCase(writes[i].name, writes[j].name)
    decreases j
    ensures var k := writes[j].name;
      Named(MergeAll(attrs, declared, writes), k)
        == Outcome(Named(attrs, k), k, Merge(DeclaredValue(declared, k), writes[j].value))
  {
    var k := writes[j].name;
    var w := writes[0];
    var next := SetMerged(attrs, w.name, DeclaredValue(declared, w.name), w.value);
    if j == 0 {
      forall i | 0 <= i < |writes[1..]| ensures !EqualsIgnoreCase(k, writes[1..][i].name) {
        assert writes[1..][i] == writes[i + 1];
      }
    } else {
      forall i | 0 <= i < |writes[1..]| && i != j - 1
        ensures !EqualsIgnoreCase(writes[1..][i].name, writes[1..][j - 1].name)
      {
        assert writes[1..][i] == writes[i + 1];
      }
      MergeAllOutcome(next, declared, writes[1..], j - 1);
      assert !EqualsIgnoreCase(k, w.name);
    }
  }

  /** `Process`: runs the first mode of the chain that applies, then removes
      that mode's marker. */
  function Process(h: Helper, declared: seq<Attr>, out: Output): (r: Output)
    ensures r.tagName == out.tagName && r.suppressed == out.suppressed
    ensures ModeOf(h) == Idle ==> r == out
    ensures ModeOf(h) != Idle ==> Named(r.attrs, Marker(ModeOf(h))) == []
    ensures forall n {:trigger Named(r.attrs, n)} ::
      && (ModeOf(h) == Idle || !EqualsIgnoreCase(n, Marker(ModeOf(h))))
      && (forall i | 0 <= i < |Writes(h)| :: !EqualsIgnoreCase(n, Writes(h)[i].name))
      ==> Named(r.attrs, n) == Named(out.attrs, n)
  {
    var mode := ModeOf(h);
    if mode == Idle then out
    else out.(attrs := RemoveAll(MergeAll(out.attrs, declared, Writes(h)), Marker(mode)))
  }

  /** With every property at its initial value no mode runs: a helper whose
      markers have been stripped changes nothing. */
  lemma DefaultsChangeNothing(declared: seq<Attr>, out: Output)
    ensures Process(Defaults, declared, out) == out
  {
    assert !Defaults.ifEither.BothSet() by {
      assert IsBlank(Defaults.ifEither.valueIf);
    }
  }

  /** The grouped many-mode pass, seen from one name `k`: the values given
      for `k` are joined and merged once against `k`'s declared value. */
  lemma {:induction false} ManyOutcome(xs: seq<Assignment>, declared: seq<Attr>, attrs: seq<Attr>, marker: string, k: string)
    requires k in NamesOf(xs)
    requires forall j | 0 <= j < |xs| :: xs[j].name == k || !EqualsIgnoreCase(xs[j].name, k)
    requires !EqualsIgnoreCase(k, marker)
    ensures Named(RemoveAll(MergeAll(attrs, declared, Group(xs)), marker), k)
      == Outcome(Named(attrs, k), k, Merge(DeclaredValue(declared, k), Join(ValuesFor(xs, k), ' ')))
  {
    var g := Group(xs);
    GroupNames(xs);
    GroupValues(xs);
    FirstSeenMembers(xs, k);
    assert k in NamesOf(g);
    var j :| 0 <= j < |g| && NamesOf(g)[j] == k;
    forall i | 0 <= i < |g| && i != j
      ensures !EqualsIgnoreCase(g[i].name, g[j].name)
    {
      assert NamesOf(g)[i] != NamesOf(g)[j];
      GroupNamesGiven(xs, i);
      var l :| 0 <= l < |xs| && NamesOf(xs)[l] == g[i].name;
      assert xs[l].name == g[i].name;
    }
    MergeAllOutcome(attrs, declared, g, j);
  }

  /** many/if: the name `k` receives the values of the entries named `k`
      whose condition holds, space-joined in input order, merged once with
      the value declared for `k`; the many/if marker is removed. */
  lemma ManyIfOutcome(h: Helper, declared: seq<Attr>, out: Output, k: string)
    requires |h.ifMany| > 0
    requires k in NamesOf(Contributions(h.ifMany))
    requires forall j | 0 <= j < |h.ifMany| :: h.ifMany[j].name == k || !EqualsIgnoreCase(h.ifMany[j].name, k)
    requires !EqualsIgnoreCase(k, IfManyMarker)
    ensures var r := Process(h, declared, out);
      && Named(r.attrs, k) == Outcome(Named(out.attrs, k), k,
           Merge(DeclaredValue(declared, k), Join(TrueValuesFor(h.ifMany, k), ' ')))
      && Named(r.attrs, IfManyMarker) == []
  {
    var xs := Contributions(h.ifMany);
    forall j | 0 <= j < |xs| ensures xs[j].name == k || !EqualsIgnoreCase(xs[j].name, k) {
      ContributionFrom(h.ifMany, j);
    }
    ManyOutcome(xs, declared, out.attrs, IfManyMarker, k);
    ContributionValues(h.ifMany, k);
  }

  /** Each kept value comes from some entry whose condition holds. */
  lemma {:induction false} ContributionFrom(entries: seq<IfEntry>, j: nat)
    requires j < |Contributions(entries)|
    ensures exists l | 0 <= l < |entries| ::
      entries[l].condition && Contributions(entries)[j] == Assignment(entries[l].name, entries[l].value)
  {
    var init := entries[..|entries| - 1];
    var e := entries[|entries| - 1];
    if j < |Contributions(init)| {
      ContributionFrom(init, j);
      var l :| 0 <= l < |init| && init[l].condition && Contributions(init)[j] == Assignment(init[l].name, init[l].value);
      assert entries[l] == init[l];
    } else {
      assert entries[|entries| - 1] == e;
    }
  }

  lemma {:induction false} ContributionsAppend(a: seq<IfEntry>, b: seq<IfEntry>)
    ensures Contributions(a + b) == Contributions(a) + Contributions(b)
  {
    if |b| == 0 {
      assert a + b == a;
    } else {
      var b' := b[..|b| - 1];
      assert (a + b)[..|a + b| - 1] == a + b';
      assert (a + b)[|a + b| - 1] == b[|b| - 1];
      ContributionsAppend(a, b');
    }
  }

  /** many/if: an entry whose condition is false can be dropped without
      changing the result, as long as the list stays non-empty. */
  lemma FalseEntryIgnored(h: Helper, a: seq<IfEntry>, e: IfEntry, b: seq<IfEntry>, declared: seq<Attr>, out: Output)
    requires !e.condition && |a + b| > 0
    ensures Process(h.(ifMany := a + [e] + b), declared, out) == Process(h.(ifMany := a + b), declared, out)
  {
    var h1 := h.(ifMany := a + [e] + b);
    var h2 := h.(ifMany := a + b);
    ContributionsAppend(a + [e], b);
    ContributionsAppend(a, [e]);
    ContributionsAppend(a, b);
    assert Contributions([e]) == [] by {
      assert [e][..0] == [];
    }
    assert Contributions(h1.ifMany) == Contributions(h2.ifMany);
    assert ModeOf(h1) == ModeOf(h2) == ManyIf;
    assert Writes(h1) == Writes(h2);
  }

  /** many/if-else: the name `k` receives one value per entry named `k`, the
      branch its condition selects, space-joined in input order and merged
      once with the value declared for `k`. */
  lemma ManyIfElseOutcome(h: Helper, declared: seq<Attr>, out: Output, k: string)
    requires |h.ifMany| == 0 && |h.ifElseMany| > 0
    requires exists j | 0 <= j < |h.ifElseMany| :: h.ifElseMany[j].name == k
    requires forall j | 0 <= j < |h.ifElseMany| :: h.ifElseMany[j].name == k || !EqualsIgnoreCase(h.ifElseMany[j].name, k)
    requires !EqualsIgnoreCase(k, IfElseManyMarker)
    ensures var r := Process(h, declared, out);
      && Named(r.attrs, k) == Outcome(Named(out.attrs, k), k,
           Merge(DeclaredValue(declared, k), Join(SelectedFor(h.ifElseMany, k), ' ')))
      && Named(r.attrs, IfElseManyMarker) == []
  {
    var xs := Choices(h.ifElseMany);
    var j :| 0 <= j < |h.ifElseMany| && h.ifElseMany[j].name == k;
    assert NamesOf(xs)[j] == k;
    ManyOutcome(xs, declared, out.attrs, IfElseManyMarker, k);
    ChoiceValues(h.ifElseMany, k);
  }

  /** Reference definition: the values the many/if entries named `k` offer
      when their condition holds, in input order. */
  function TrueValuesFor(entries: seq<IfEntry>, k: string): seq<string>
  {
    if |entries| == 0 then []
    else
      var e := entries[|entries| - 1];
      TrueValuesFor(entries[..|entries| - 1], k) + (if e.condition && e.name == k then [e.value] else [])
  }

  /** Reference definition: one value per many/if-else entry named `k`, the
      branch its condition selects, in input order. */
  function SelectedFor(entries: seq<EitherEntry>, k: string): seq<string>
  {
    if |entries| == 0 then []
    else
      var e := entries[|entries| - 1];
      SelectedFor(entries[..|entries| - 1], k) + (if e.name == k then [e.Selected()] else [])
  }

  lemma {:induction false} ContributionValues(entries: seq<IfEntry>, k: string)
    ensures ValuesFor(Contributions(entries), k) == TrueValuesFor(entries, k)
  {
    if |entries| > 0 {
      var init := entries[..|entries| - 1];
      var e := entries[|entries| - 1];
      ContributionValues(init, k);
      if e.condition {
        ValuesForSnoc(Contributions(init), Assignment(e.name, e.value), k);
      } else {
        assert Contributions(entries) == Contributions(init);
      }
    }
  }

  lemma {:induction false} ChoiceValues(entries: seq<EitherEntry>, k: string)
    ensures ValuesFor(Choices(entries), k) == SelectedFor(entries, k)
  {
    if |entries| > 0 {
      var init := entries[..|entries| - 1];
      var e := entries[|entries| - 1];
      ChoiceValues(init, k);
      assert Choices(entries) == Choices(init) + [Assignment(e.name, e.Selected())];
      ValuesForSnoc(Choices(init), Assignment(e.name, e.Selected()), k);
    }
  }

  /** if/else: when both branches are non-blank it always writes the
      selected branch, merged with the declared value of its attribute. */
  lemma IfElseOutcome(h: Helper, declared: seq<Attr>, out: Output)
    requires |h.ifMany| == 0 && |h.ifElseMany| == 0 && h.ifEither.BothSet()
    requires !EqualsIgnoreCase(h.ifEither.name, IfElseMarker)
    ensures var r := Process(h, declared, out);
      var n := h.ifEither.name;
      var v := if h.ifEither.condition then h.ifEither.valueIf else h.ifEither.valueIfNot;
      && Merge(DeclaredValue(declared, n), v).Some?
      && Named(r.attrs, n) == [Attr(n, StringValue(Merge(DeclaredValue(declared, n), v).value))]
      && Named(r.attrs, IfElseMarker) == []
  {
    MergeAllOutcome(out.attrs, declared, Writes(h), 0);
  }

  /** if: with no higher mode present, a true condition merges its value
      into its attribute. */
  lemma IfOutcome(h: Helper, declared: seq<Attr>, out: Output)
    requires |h.ifMany| == 0 && |h.ifElseMany| == 0 && !h.ifEither.BothSet()
    requires h.ifOne.condition
    requires !EqualsIgnoreCase(h.ifOne.name, IfMarker)
    ensures var r := Process(h, declared, out);
      var n := h.ifOne.name;
      && Named(r.attrs, n) == Outcome(Named(out.attrs, n), n, Merge(DeclaredValue(declared, n), h.ifOne.value))
      && Named(r.attrs, IfMarker) == []
  {
    MergeAllOutcome(out.attrs, declared, Writes(h), 0);
  }

  /** if-not: with no higher mode present, a FALSE condition merges its
      value into its attribute. */
  lemma IfNotOutcome(h: Helper, declared: seq<Attr>, out: Output)
    requires |h.ifMany| == 0 && |h.ifElseMany| == 0 && !h.ifEither.BothSet() && !h.ifOne.condition
    requires !h.ifNot.condition
    requires !EqualsIgnoreCase(h.ifNot.name, IfNotMarker)
    ensures var r := Process(h, declared, out);
      var n := h.ifNot.name;
      && Named(r.attrs, n) == Outcome(Named(out.attrs, n), n, Merge(DeclaredValue(declared, n), h.ifNot.value))
      && Named(r.attrs, IfNotMarker) == []
  {
    MergeAllOutcome(out.attrs, declared, Writes(h), 0);
  }

  /** if-not: a true condition, with no higher mode present, leaves the
      element exactly as it was. */
  lemma IfNotTrueChangesNothing(h: Helper, declared: seq<Attr>, out: Output)
    requires |h.ifMany| == 0 && |h.ifElseMany| == 0 && !h.ifEither.BothSet() && !h.ifOne.condition
    requires h.ifNot.condition
    ensures Process(h, declared, out) == out
  {
  }

  /** A non-empty many/if list decides the result alone: every other mode's
      input is ignored. */
  lemma ManyIfTakesPrecedence(h: Helper, other: Helper, declared: seq<Attr>, out: Output)
    requires |h.ifMany| > 0 && other.ifMany == h.ifMany
    ensures Process(h, declared, out) == Process(other, declared, out)
  {
  }

  /** many/if-else is used only when many/if is empty, and then decides alone. */
  lemma ManyIfElseTakesPrecedence(h: Helper, other: Helper, declared: seq<Attr>, out: Output)
    requires |h.ifMany| == 0 && other.ifMany == h.ifMany
    requires |h.ifElseMany| > 0 && other.ifElseMany == h.ifElseMany
    ensures Process(h, declared, out) == Process(other, declared, out)
  {
  }

  /** if/else with both branches set beats if and if-not. */
  lemma IfElseTakesPrecedence(h: Helper, other: Helper, declared: seq<Attr>, out: Output)
    requires |h.ifMany| == 0 && other.ifMany == h.ifMany
    requires |h.ifElseMany| == 0 && other.ifElseMany == h.ifElseMany
    requires h.ifEither.BothSet() && other.ifEither == h.ifEither
    ensures Process(h, declared, out) == Process(other, declared, out)
  {
  }

  /** if with a true condition beats if-not. */
  lemma IfTakesPrecedence(h: Helper, other: Helper, declared: seq<Attr>, out: Output)
    requires |h.ifMany| == 0 && other.ifMany == h.ifMany
    requires |h.ifElseMany| == 0 && other.ifElseMany == h.ifElseMany
    requires !h.ifEither.BothSet() && other.ifEither == h.ifEither
    requires h.ifOne.condition && other.ifOne == h.ifOne
    ensures Process(h, declared, out) == Process(other, declared, out)
  {
  }

  /** if/else with a blank branch does not run: control falls through to if
      and if-not exactly as if it had not been given. */
  lemma HalfSetIfElseFallsThrough(h: Helper, declared: seq<Attr>, out: Output)
    requires !h.ifEither.BothSet()
    ensures Process(h, declared, out) == Process(h.(ifEither := Defaults.ifEither), declared, out)
  {
    assert !Defaults.ifEither.BothSet() by {
      assert IsBlank(Defaults.ifEither.valueIf);
    }
  }

  const NoAttributes: Output := Output([], Some("div"), false)

  /** `if=(true,"data-x","A")` with `if-not=(false,"data-x","B")` writes only "A". */
  lemma IfBeatsIfNotExample()
    ensures var h := Defaults.(ifOne := IfEntry(true, "data-x", "A"), ifNot := IfEntry(false, "data-x", "B"));
      Named(Process(h, [], NoAttributes).attrs, "data-x") == [Attr("data-x", StringValue("A"))]
  {
    var h := Defaults.(ifOne := IfEntry(true, "data-x", "A"), ifNot := IfEntry(false, "data-x", "B"));
    assert !h.ifEither.BothSet() by {
      assert IsBlank(h.ifEither.valueIf);
    }
    DifferAt("data-x", IfMarker, 0);
    IfOutcome(h, [], NoAttributes);
    assert !IsBlank("A") by {
      assert !IsWhiteSpace("A"[0]);
    }
  }

  const GroupingEntries := [IfEntry(true, "data-a", "1"), IfEntry(true, "data-a", "2"), IfEntry(false, "data-a", "3")]

  lemma GroupingEntriesValues()
    ensures TrueValuesFor(GroupingEntries, "data-a") == ["1", "2"]
    ensures "data-a" in NamesOf(Contributions(GroupingEntries))
  {
    var es := GroupingEntries;
    assert es[..2][..1] == es[..1] && es[..1][..0] == [];
    assert TrueValuesFor(es[..1], "data-a") == ["1"];
    assert TrueValuesFor(es[..2], "data-a") == ["1", "2"];
    assert Contributions(es[..1]) == [Assignment("data-a", "1")];
    assert Contributions(es) == Contributions(es[..2]);
    assert NamesOf(Contributions(es))[0] == "data-a";
  }

  /** The grouped value "1 2" merged over no declared value is written as is. */
  lemma JoinedValuesMerged()
    ensures Merge(DeclaredValue([], "data-a"), Join(["1", "2"], ' ')) == Some("1 2")
  {
    assert Join(["1", "2"], ' ') == "1 2";
    assert !IsWhiteSpace("1 2"[0]);
  }

  /** many/if `[(true,"data-a","1"), (true,"data-a","2"), (false,"data-a","3")]`
      writes `data-a="1 2"`. */
  lemma ManyIfGroupingExample()
    ensures Named(Process(Defaults.(ifMany := GroupingEntries), [], NoAttributes).attrs, "data-a")
      == [Attr("data-a", StringValue("1 2"))]
  {
    var h := Defaults.(ifMany := GroupingEntries);
    GroupingEntriesValues();
    DifferAt("data-a", IfManyMarker, 0);
    assert forall j | 0 <= j < |h.ifMany| :: h.ifMany[j].name == "data-a";
    ManyIfOutcome(h, [], NoAttributes, "data-a");
    JoinedValuesMerged();
  }

  const CaseEntries := [IfEntry(true, "data-a", "1"), IfEntry(true, "DATA-A", "2")]
  const CaseWrites := [Assignment("data-a", "1"), Assignment("DATA-A", "2")]

  /** `data-a` and `DATA-A` are two keys of the case-sensitive lookup. */
  lemma CaseEntriesGroup()
    ensures Group(Contributions(CaseEntries)) == CaseWrites
  {
    var es := CaseEntries;
    var a1 := CaseWrites[0];
    var a2 := CaseWrites[1];
    assert es[..1][..0] == [] && es[..1] == [es[0]];
    assert Contributions(es) == [a1, a2];
    assert [a1, a2][..1] == [a1] && [a1][..0] == [];
    assert Group([a1]) == [a1];
    assert Accumulate([a1], a2) == [a1, a2];
  }

  /** Writing two assignments is two merges, in order. */
  lemma MergeAllTwo(attrs: seq<Attr>, declared: seq<Attr>, a1: Assignment, a2: Assignment)
    ensures MergeAll(attrs, declared, [a1, a2]) ==
      SetMerged(SetMerged(attrs, a1.name, DeclaredValue(declared, a1.name), a1.value),
        a2.name, DeclaredValue(declared, a2.name), a2.value)
  {
    var s1 := SetMerged(attrs, a1.name, DeclaredValue(declared, a1.name), a1.value);
    var s2 := SetMerged(s1, a2.name, DeclaredValue(declared, a2.name), a2.value);
    assert [a1, a2][1..] == [a2] && [a2][1..] == [];
    assert MergeAll(attrs, declared, [a1, a2]) == MergeAll(s1, declared, [a2]);
    assert MergeAll(s1, declared, [a2]) == MergeAll(s2, declared, []);
  }

  /** Over a blank declared value, a non-blank write is the attribute's only value. */
  lemma MergedOverBlank(attrs: seq<Attr>, declared: seq<Attr>, name: string, incoming: string)
    requires Named(declared, name) == [] && !IsBlank(incoming)
    ensures Named(SetMerged(attrs, name, DeclaredValue(declared, name), incoming), name)
      == [Attr(name, StringValue(incoming))]
  {
  }

  /** `data-a` and `DATA-A` name the same attribute. */
  lemma CaseKeysSameAttribute()
    ensures EqualsIgnoreCase("data-a", "DATA-A")
  {
    var lower := "data-a";
    var upper := "DATA-A";
    forall i | 0 <= i < 6 ensures UpperChar(lower[i]) == upper[i] && UpperChar(upper[i]) == upper[i] {
    }
    assert Upper(lower) == upper;
    assert Upper(upper) == upper;
  }

  /** Both keys are merged into the one attribute; the later one stays. */
  lemma CaseWritesMerged()
    ensures Named(MergeAll([], [], CaseWrites), "data-a") == [Attr("DATA-A", StringValue("2"))]
  {
    var a1 := CaseWrites[0];
    var a2 := CaseWrites[1];
    var s1 := SetMerged([], a1.name, DeclaredValue([], a1.name), a1.value);
    var s2 := SetMerged(s1, a2.name, DeclaredValue([], a2.name), a2.value);
    assert MergeAll([], [], CaseWrites) == s2 by {
      MergeAllTwo([], [], a1, a2);
    }
    assert Named(s2, a2.name) == [Attr("DATA-A", StringValue("2"))] by {
      assert !IsBlank(a2.value) by {
        assert !IsWhiteSpace(a2.value[0]);
      }
      MergedOverBlank(s1, [], a2.name, a2.value);
    }
    assert Named(s2, "data-a") == Named(s2, a2.name) by {
      CaseKeysSameAttribute();
      NamedIgnoresCase(s2, "data-a", a2.name);
    }
  }

  /** The lookup is a case-sensitive dictionary, so `data-a` and `DATA-A` are
      two keys; both are merged into the one attribute the list holds for
      them, and the later key's value is the one that stays. */
  lemma CaseDistinctKeysLastWins()
    ensures Named(Process(Defaults.(ifMany := CaseEntries), [], NoAttributes).attrs, "data-a")
      == [Attr("DATA-A", StringValue("2"))]
  {
    var h := Defaults.(ifMany := CaseEntries);
    CaseEntriesGroup();
    assert Writes(h) == CaseWrites;
    CaseWritesMerged();
    DifferAt("data-a", IfManyMarker, 0);
  }

  const IfDataX := Defaults.(ifOne := IfEntry(true, "data-x", "A"))

  /** if alone writes `data-x="A"`. */
  lemma IfDataXWrites()
    ensures Named(Process(IfDataX, [], NoAttributes).attrs, "data-x") == [Attr("data-x", StringValue("A"))]
  {
    assert !IfDataX.ifEither.BothSet() by {
      assert IsBlank(IfDataX.ifEither.valueIf);
    }
    DifferAt("data-x", IfMarker, 0);
    IfOutcome(IfDataX, [], NoAttributes);
    assert !IsBlank("A") by {
      assert !IsWhiteSpace("A"[0]);
    }
  }

  /** A lone false many/if entry selects many/if mode and writes nothing. */
  lemma LoneFalseEntryWritesNothing(h: Helper)
    requires h.ifMany == [IfEntry(false, "data-x", "B")]
    ensures Named(Process(h, [], NoAttributes).attrs, "data-x") == []
  {
    assert Contributions(h.ifMany) == [] by {
      assert h.ifMany[..0] == [];
    }
    assert Writes(h) == [];
    DifferAt("data-x", IfManyMarker, 0);
  }

  /** A lone false many/if entry is not ignored: with `if=(true,"data-x","A")`,
      adding the entry `(false,"data-x","B")` removes the `data-x="A"` that
      if alone writes. */
  lemma LoneFalseEntryExample()
    ensures Named(Process(IfDataX.(ifMany := [IfEntry(false, "data-x", "B")]), [], NoAttributes).attrs, "data-x") == []
    ensures Named(Process(IfDataX, [], NoAttributes).attrs, "data-x") == [Attr("data-x", StringValue("A"))]
  {
    LoneFalseEntryWritesNothing(IfDataX.(ifMany := [IfEntry(false, "data-x", "B")]));
    IfDataXWrites();
  }
}

=== FILE: conditional_classes.dfy ===
/** `HTMLConditionalClassesTagHelper`: adds CSS classes chosen by conditions
    to the element's `class` attribute. Unlike the attribute helper, the
    many/if mode and the rest of the chain are two separate `if`s, so up to
    two merges run on one element, both against the class value declared on
    the element. */
module ConditionalClasses {
  import opened Strings
  import opened TagOutput
  import opened ConditionalMerge

  const ClassAttribute := "class"

  const IfMarker := "xpc-class-if"
  const IfNotMarker := "xpc-class-if-not"
  const IfElseMarker := "xpc-class-if-else"
  const IfManyMarker := "xpc-class-if-many"
  const IfElseManyMarker := "xpc-class-if-else-many"

  /** (Condition, Classes) */
  datatype IfEntry = IfEntry(condition: bool, classes: string)

  /** (Condition, ClassesIf, ClassesIfNot) */
  datatype EitherEntry = EitherEntry(condition: bool, classesIf: string, classesIfNot: string) {
    function Selected(): string {
      if condition then classesIf else classesIfNot
    }

    /** The if/else mode only runs when both branches hold something. */
    predicate BothSet() {
      !IsBlank(classesIf) && !IsBlank(classesIfNot)
    }
  }

  /** The helper's bound properties. */
  datatype Helper = Helper(
    ifOne: IfEntry,
    ifNot: IfEntry,
    ifEither: EitherEntry,
    ifMany: seq<IfEntry>,
    ifElseMany: seq<EitherEntry>)

  /** The property initialisers: what the helper sees when no marker is given. */
  const Defaults := Helper(IfEntry(false, ""), IfEntry(true, ""), EitherEntry(false, "", ""), [], [])

  datatype Mode = ManyIf | ManyIfElse | IfElse | If | IfNot

  function Marker(m: Mode): string {
    match m
    case ManyIf => IfManyMarker
    case ManyIfElse => IfElseManyMarker
    case IfElse => IfElseMarker
    case If => IfMarker
    case IfNot => IfNotMarker
  }

  /** The many/if marker is a different attribute from every marker of the chain. */
  lemma ManyIfMarkerIsNotAChainMarker()
    ensures forall m: Mode :: m != ManyIf ==> !EqualsIgnoreCase(IfManyMarker, Marker(m))
  {
    DifferAt(IfManyMarker, IfElseMarker, 13);
  }

  /** What the many/if loop's StringBuilder holds: the classes of each entry
      whose condition holds, each followed by a space. */
  function IfManyClasses(entries: seq<IfEntry>): string
  {
    if |entries| == 0 then ""
    else
      var e := entries[|entries| - 1];
      IfManyClasses(entries[..|entries| - 1]) + (if e.condition then e.classes + " " else "")
  }

  /** What the many/if-else loop's StringBuilder holds: for every entry the
      branch its condition selects, followed by a space. */
  function IfElseManyClasses(entries: seq<EitherEntry>): string
  {
    if |entries| == 0 then ""
    else
      var e := entries[|entries| - 1];
      IfElseManyClasses(entries[..|entries| - 1]) + e.Selected() + " "
  }

  /** Reference definition: the classes of the entries whose condition holds, in order. */
  function TrueClasses(entries: seq<IfEntry>): seq<string>
  {
    if |entries| == 0 then []
    else (if entries[0].condition then [entries[0].classes] else []) + TrueClasses(entries[1..])
  }

  /** Reference definition: the branch each entry selects, in order. */
  function SelectedClasses(entries: seq<EitherEntry>): (r: seq<string>)
    ensures |r| == |entries| && forall i | 0 <= i < |entries| :: r[i] == entries[i].Selected()
  {
    seq(|entries|, i requires 0 <= i < |entries| => entries[i].Selected())
  }

  lemma {:induction false} TrueClassesSnoc(entries: seq<IfEntry>, e: IfEntry)
    ensures TrueClasses(entries + [e]) == TrueClasses(entries) + (if e.condition then [e.classes] else [])
  {
    if |entries| == 0 {
      assert entries + [e] == [e];
    } else {
      assert (entries + [e])[1..] == entries[1..] + [e];
      TrueClassesSnoc(entries[1..], e);
    }
  }

  /** The many/if list is the true entries' classes, each followed by a space. */
  lemma {:induction false} IfManyClassesAreTerminated(entries: seq<IfEntry>)
    ensures IfManyClasses(entries) == Terminated(TrueClasses(entries), ' ')
  {
    if |entries| > 0 {
      var init := entries[..|entries| - 1];
      var e := entries[|entries| - 1];
      assert entries == init + [e];
      IfManyClassesAreTerminated(init);
      TrueClassesSnoc(init, e);
      if e.condition {
        TerminatedSnoc(TrueClasses(init), e.classes, ' ');
        assert IfManyClasses(entries) == IfManyClasses(init) + e.classes + [' '];
      } else {
        assert TrueClasses(entries) == TrueClasses(init);
      }
    }
  }

  /** The many/if-else list is every entry's selected branch, each followed by a space. */
  lemma {:induction false} IfElseManyClassesAreTerminated(entries: seq<EitherEntry>)
    ensures IfElseManyClasses(entries) == Terminated(SelectedClasses(entries), ' ')
  {
    if |entries| > 0 {
      var init := entries[..|entries| - 1];
      var e := entries[|entries| - 1];
      IfElseManyClassesAreTerminated(init);
      assert SelectedClasses(entries) == SelectedClasses(init) + [e.Selected()];
      TerminatedSnoc(SelectedClasses(init), e.Selected(), ' ');
    }
  }

  /** One space per many/if-else entry, whatever it selects. */
  lemma IfElseManyLength(entries: seq<EitherEntry>)
    ensures |IfElseManyClasses(entries)| == TotalLength(SelectedClasses(entries)) + |entries|
  {
    IfElseManyClassesAreTerminated(entries);
    TerminatedLength(SelectedClasses(entries), ' ');
  }

  /** The many/if list is blank exactly when every entry whose condition
      holds names only whitespace; in particular when no condition holds. */
  lemma {:induction false} IfManyBlank(entries: seq<IfEntry>)
    ensures IsBlank(IfManyClasses(entries)) <==>
      forall i | 0 <= i < |entries| && entries[i].condition :: IsBlank(entries[i].classes)
  {
    if |entries| > 0 {
      var init := entries[..|entries| - 1];
      var e := entries[|entries| - 1];
      IfManyBlank(init);
      var piece := if e.condition then e.classes + " " else "";
      BlankConcat(IfManyClasses(init), piece);
      BlankConcat(e.classes, " ");
      assert forall i | 0 <= i < |init| :: init[i] == entries[i];
    }
  }

  /** The many/if-else list is blank exactly when every selected branch is blank. */
  lemma IfElseManyBlank(entries: seq<EitherEntry>)
    ensures IsBlank(IfElseManyClasses(entries)) <==>
      forall i | 0 <= i < |entries| :: IsBlank(entries[i].Selected())
  {
    IfElseManyClassesAreTerminated(entries);
    TerminatedBlank(SelectedClasses(entries));
  }

  /** One merge of the pass: the mode that runs it and the classes it merges. */
  datatype Step = Step(mode: Mode, classes: string)

  /** The first `if` of `Process`: a non-empty many/if list. */
  function ManyIfStep(h: Helper): Option<Step> {
    if |h.ifMany| > 0 then Some(Step(ManyIf, IfManyClasses(h.ifMany))) else None
  }

  /** Whether the bound properties ask for mode `m`: a non-empty list, an
      if/else with both branches set, a true `If`, a false `IfNot`. */
  predicate Requested(h: Helper, m: Mode) {
    match m
    case ManyIf => |h.ifMany| > 0
    case ManyIfElse => |h.ifElseMany| > 0
    case IfElse => h.ifEither.BothSet()
    case If => h.ifOne.condition
    case IfNot => !h.ifNot.condition
  }

  /** A mode's place in the `if / else if` chain; many/if stands outside it. */
  function Rank(m: Mode): nat {
    match m
    case ManyIf => 0
    case ManyIfElse => 1
    case IfElse => 2
    case If => 3
    case IfNot => 4
  }

  /** The classes mode `m` merges into `class`. */
  function ModeClasses(h: Helper, m: Mode): string {
    match m
    case ManyIf => IfManyClasses(h.ifMany)
    case ManyIfElse => IfElseManyClasses(h.ifElseMany)
    case IfElse => h.ifEither.Selected()
    case If => h.ifOne.classes
    case IfNot => h.ifNot.classes
  }

  /** The second `if` of `Process` and its `else if` chain: the first chain
      mode requested runs with its own classes, and none runs when no chain
      mode is requested. */
  function ChainStep(h: Helper): (r: Option<Step>)
    ensures r.Some? ==> r.value.mode != ManyIf && Requested(h, r.value.mode)
    ensures r.Some? ==> r.value.classes == ModeClasses(h, r.value.mode)
    ensures forall e: Mode :: e != ManyIf && (r.None? || Rank(e) < Rank(r.value.mode)) ==> !Requested(h, e)
  {
    if |h.ifElseMany| > 0 then Some(Step(ManyIfElse, IfElseManyClasses(h.ifElseMany)))
    else if h.ifEither.BothSet() then Some(Step(IfElse, h.ifEither.Selected()))
    else if h.ifOne.condition then Some(Step(If, h.ifOne.classes))
    else if !h.ifNot.condition then Some(Step(IfNot, h.ifNot.classes))
    else None
  }

  /** The class attributes after a step (if any) merged into `previous`. */
  function ClassesAfter(previous: seq<Attr>, existing: string, s: Option<Step>): seq<Attr> {
    match s
    case None => previous
    case Some(st) => Outcome(previous, ClassAttribute, Merge(existing, st.classes))
  }

  /** Runs one step: `SetClasses` then removal of the step's marker. */
  function Apply(attrs: seq<Attr>, existing: string, s: Option<Step>): (r: seq<Attr>)
    ensures s.None? ==> r == attrs
    ensures Named(r, ClassAttribute) == ClassesAfter(Named(attrs, ClassAttribute), existing, s)
    ensures s.Some? ==> Named(r, Marker(s.value.mode)) == []
    ensures forall m {:trigger Named(r, m)} ::
      !EqualsIgnoreCase(m, ClassAttribute) && (s.Some? ==> !EqualsIgnoreCase(m, Marker(s.value.mode)))
      ==> Named(r, m) == Named(attrs, m)
  {
    match s
    case None => attrs
    case Some(st) => RemoveAll(SetMerged(attrs, ClassAttribute, existing, st.classes), Marker(st.mode))
  }

  /** `Process`: reads the declared class once, then runs the many/if step
      and the chain step, each merging against that declared value. */
  function Process(h: Helper, declared: seq<Attr>, out: Output): (r: Output)
    ensures r.tagName == out.tagName && r.suppressed == out.suppressed
    ensures ManyIfStep(h).None? && ChainStep(h).None? ==> r == out
    ensures ManyIfStep(h).Some? ==> Named(r.attrs, IfManyMarker) == []
    ensures ChainStep(h).Some? ==> Named(r.attrs, Marker(ChainStep(h).value.mode)) == []
  {
    var existing := DeclaredValue(declared, ClassAttribute);
    var first := Apply(out.attrs, existing, ManyIfStep(h));
    var attrs := Apply(first, existing, ChainStep(h));
    ManyIfMarkerIsNotAChainMarker();
    out.(attrs := attrs)
  }

  /** Every attribute other than `class` and the markers of the steps that
      ran is left as it was; in particular the marker of a step that did not
      run stays. */
  lemma ProcessKeepsOthers(h: Helper, declared: seq<Attr>, out: Output, name: string)
    requires !EqualsIgnoreCase(name, ClassAttribute)
    requires ManyIfStep(h).None? || !EqualsIgnoreCase(name, IfManyMarker)
    requires ChainStep(h).None? || !EqualsIgnoreCase(name, Marker(ChainStep(h).value.mode))
    ensures Named(Process(h, declared, out).attrs, name) == Named(out.attrs, name)
  {
    var existing := DeclaredValue(declared, ClassAttribute);
    var first := Apply(out.attrs, existing, ManyIfStep(h));
    assert Named(first, name) == Named(out.attrs, name);
  }

  /** The class attribute after `Process`: the many/if merge, then the chain
      merge, both against the declared class. */
  lemma ProcessClasses(h: Helper, declared: seq<Attr>, out: Output)
    ensures var existing := DeclaredValue(declared, ClassAttribute);
      Named(Process(h, declared, out).attrs, ClassAttribute) ==
        ClassesAfter(ClassesAfter(Named(out.attrs, ClassAttribute), existing, ManyIfStep(h)), existing, ChainStep(h))
  {
  }

  /** With nothing but defaults the element is left exactly as it was. */
  lemma DefaultsChangeNothing(declared: seq<Attr>, out: Output)
    ensures Process(Defaults, declared, out) == out
  {
  }

  /** many/if alone: the classes of the true entries, each followed by a
      space, are merged with the declared class; the marker is removed. */
  lemma ManyIfOutcome(h: Helper, declared: seq<Attr>, out: Output)
    requires |h.ifMany| > 0
    requires |h.ifElseMany| == 0 && !h.ifEither.BothSet() && !h.ifOne.condition && h.ifNot.condition
    ensures var r := Process(h, declared, out);
      && Named(r.attrs, ClassAttribute) == Outcome(Named(out.attrs, ClassAttribute), ClassAttribute,
           Merge(DeclaredValue(declared, ClassAttribute), Terminated(TrueClasses(h.ifMany), ' ')))
      && Named(r.attrs, IfManyMarker) == []
  {
    ProcessClasses(h, declared, out);
    IfManyClassesAreTerminated(h.ifMany);
  }

  /** many/if where no condition holds (or every true entry is blank) leaves
      the class attribute as it was. */
  lemma ManyIfBlankKeepsClass(h: Helper, declared: seq<Attr>, out: Output)
    requires |h.ifMany| > 0
    requires forall i | 0 <= i < |h.ifMany| && h.ifMany[i].condition :: IsBlank(h.ifMany[i].classes)
    requires |h.ifElseMany| == 0 && !h.ifEither.BothSet() && !h.ifOne.condition && h.ifNot.condition
    ensures Named(Process(h, declared, out).attrs, ClassAttribute) == Named(out.attrs, ClassAttribute)
  {
    ProcessClasses(h, declared, out);
    IfManyBlank(h.ifMany);
  }

  /** many/if-else: one selected branch per entry, each followed by a space,
      merged with the declared class. When many/if ran too and some branch
      selected is non-blank, the many/if classes are replaced, not kept. */
  lemma ManyIfElseOutcome(h: Helper, declared: seq<Attr>, out: Output)
    requires |h.ifElseMany| > 0
    requires exists i | 0 <= i < |h.ifElseMany| :: !IsBlank(h.ifElseMany[i].Selected())
    ensures var r := Process(h, declared, out);
      var w := Merge(DeclaredValue(declared, ClassAttribute), Terminated(SelectedClasses(h.ifElseMany), ' '));
      && w.Some?
      && Named(r.attrs, ClassAttribute) == [Attr(ClassAttribute, StringValue(w.value))]
      && Named(r.attrs, IfElseManyMarker) == []
      && (|h.ifMany| > 0 ==> Named(r.attrs, IfManyMarker) == [])
  {
    var c := IfElseManyClasses(h.ifElseMany);
    IfElseManyBlank(h.ifElseMany);
    IfElseManyClassesAreTerminated(h.ifElseMany);
    assert !IsBlank(c);
    assert Merge(DeclaredValue(declared, ClassAttribute), c).Some?;
    assert ChainStep(h) == Some(Step(ManyIfElse, c));
    ProcessClasses(h, declared, out);
  }

  /** many/if-else whose every selected branch is blank keeps whatever the
      class attribute held before it ran. */
  lemma ManyIfElseBlankKeepsClass(h: Helper, declared: seq<Attr>, out: Output)
    requires |h.ifElseMany| > 0
    requires forall i | 0 <= i < |h.ifElseMany| :: IsBlank(h.ifElseMany[i].Selected())
    ensures var existing := DeclaredValue(declared, ClassAttribute);
      Named(Process(h, declared, out).attrs, ClassAttribute) ==
        ClassesAfter(Named(out.attrs, ClassAttribute), existing, ManyIfStep(h))
  {
    ProcessClasses(h, declared, out);
    IfElseManyBlank(h.ifElseMany);
  }

  /** A single mode that runs after many/if does not add to the many/if
      classes: it merges with the declared class and overwrites them. */
  lemma ChainOverridesManyIf(h: Helper, declared: seq<Attr>, out: Output)
    requires |h.ifMany| > 0
    requires ChainStep(h).Some? && !IsBlank(ChainStep(h).value.classes)
    ensures var r := Process(h, declared, out);
      var w := Merge(DeclaredValue(declared, ClassAttribute), ChainStep(h).value.classes);
      && w.Some?
      && Named(r.attrs, ClassAttribute) == [Attr(ClassAttribute, StringValue(w.value))]
      && Named(r.attrs, IfManyMarker) == []
      && Named(r.attrs, Marker(ChainStep(h).value.mode)) == []
  {
    ProcessClasses(h, declared, out);
  }

  /** Without many/if, the chain's step alone decides the class attribute. */
  lemma ChainOutcome(h: Helper, declared: seq<Attr>, out: Output, st: Step)
    requires |h.ifMany| == 0 && ChainStep(h) == Some(st)
    ensures var r := Process(h, declared, out);
      && Named(r.attrs, ClassAttribute) == Outcome(Named(out.attrs, ClassAttribute), ClassAttribute,
           Merge(DeclaredValue(declared, ClassAttribute), st.classes))
      && Named(r.attrs, Marker(st.mode)) == []
  {
    ProcessClasses(h, declared, out);
  }

  /** if/else with both branches set merges the selected branch. */
  lemma IfElseOutcome(h: Helper, declared: seq<Attr>, out: Output)
    requires |h.ifMany| == 0 && |h.ifElseMany| == 0 && h.ifEither.BothSet()
    ensures var r := Process(h, declared, out);
      var w := Merge(DeclaredValue(declared, ClassAttribute), h.ifEither.Selected());
      && w.Some?
      && Named(r.attrs, ClassAttribute) == [Attr(ClassAttribute, StringValue(w.value))]
      && Named(r.attrs, IfElseMarker) == []
  {
    var st := Step(IfElse, h.ifEither.Selected());
    assert ChainStep(h) == Some(st);
    assert !IsBlank(st.classes);
    assert Merge(DeclaredValue(declared, ClassAttribute), st.classes).Some?;
    ChainOutcome(h, declared, out, st);
    assert Marker(st.mode) == IfElseMarker;
  }

  /** if: with no higher mode present, a true condition merges its classes. */
  lemma IfOutcome(h: Helper, declared: seq<Attr>, out: Output)
    requires |h.ifMany| == 0 && |h.ifElseMany| == 0 && !h.ifEither.BothSet()
    requires h.ifOne.condition
    ensures var r := Process(h, declared, out);
      && Named(r.attrs, ClassAttribute) == Outcome(Named(out.attrs, ClassAttribute), ClassAttribute,
           Merge(DeclaredValue(declared, ClassAttribute), h.ifOne.classes))
      && Named(r.attrs, IfMarker) == []
  {
    var st := Step(If, h.ifOne.classes);
    assert ChainStep(h) == Some(st);
    ChainOutcome(h, declared, out, st);
    assert Marker(st.mode) == IfMarker;
  }

  /** if-not: with no higher mode present, a FALSE condition merges its classes. */
  lemma IfNotOutcome(h: Helper, declared: seq<Attr>, out: Output)
    requires |h.ifMany| == 0 && |h.ifElseMany| == 0 && !h.ifEither.BothSet() && !h.ifOne.condition
    requires !h.ifNot.condition
    ensures var r := Process(h, declared, out);
      && Named(r.attrs, ClassAttribute) == Outcome(Named(out.attrs, ClassAttribute), ClassAttribute,
           Merge(DeclaredValue(declared, ClassAttribute), h.ifNot.classes))
      && Named(r.attrs, IfNotMarker) == []
  {
    var st := Step(IfNot, h.ifNot.classes);
    assert ChainStep(h) == Some(st);
    ChainOutcome(h, declared, out, st);
    assert Marker(st.mode) == IfNotMarker;
  }

  /** if-not with a true condition, and nothing else given, changes nothing. */
  lemma IfNotTrueChangesNothing(h: Helper, declared: seq<Attr>, out: Output)
    requires |h.ifMany| == 0 && |h.ifElseMany| == 0 && !h.ifEither.BothSet() && !h.ifOne.condition
    requires h.ifNot.condition
    ensures Process(h, declared, out) == out
  {
  }

  /** The chain's order is many/if-else, then if/else, then if, then if-not:
      the first that applies decides and the later ones are ignored. The
      many/if step runs on its own, so `other` keeps its entries. */
  lemma ManyIfElseTakesPrecedence(h: Helper, other: Helper, declared: seq<Attr>, out: Output)
    requires other.ifMany == h.ifMany
    requires |h.ifElseMany| > 0 && other.ifElseMany == h.ifElseMany
    ensures Process(h, declared, out) == Process(other, declared, out)
  {
  }

  /** if/else with both branches set beats if and if-not. */
  lemma IfElseTakesPrecedence(h: Helper, other: Helper, declared: seq<Attr>, out: Output)
    requires other.ifMany == h.ifMany
    requires |h.ifElseMany| == 0 && other.ifElseMany == h.ifElseMany
    requires h.ifEither.BothSet() && other.ifEither == h.ifEither
    ensures Process(h, declared, out) == Process(other, declared, out)
  {
  }

  /** if with a true condition beats if-not. */
  lemma IfTakesPrecedence(h: Helper, other: Helper, declared: seq<Attr>, out: Output)
    requires other.ifMany == h.ifMany
    requires |h.ifElseMany| == 0 && other.ifElseMany == h.ifElseMany
    requires !h.ifEither.BothSet() && other.ifEither == h.ifEither
    requires h.ifOne.condition && other.ifOne == h.ifOne
    ensures Process(h, declared, out) == Process(other, declared, out)
  {
  }

  /** The two steps read disjoint properties: the many/if step depends on
      the many/if entries alone, and the chain step on everything but them. */
  lemma StepsAreIndependent(h: Helper, other: Helper)
    ensures other.ifMany == h.ifMany ==> ManyIfStep(other) == ManyIfStep(h)
    ensures other == h.(ifMany := other.ifMany) ==> ChainStep(other) == ChainStep(h)
  {
  }

  /** An element declared with class "btn" and many/if entries (true, "a"),
      (false, "b"), (true, "c") ends up with class "btn a c " — the trailing
      space the StringBuilder loop leaves is kept. */
  const ExampleEntries := [IfEntry(true, "a"), IfEntry(false, "b"), IfEntry(true, "c")]

  lemma ExampleClasses()
    ensures IfManyClasses(ExampleEntries) == "a c "
  {
    var e := ExampleEntries;
    assert e[..2] == [IfEntry(true, "a"), IfEntry(false, "b")];
    assert e[..2][..1] == [IfEntry(true, "a")];
    assert e[..2][..1][..0] == [];
    assert IfManyClasses(e[..2][..1]) == "a ";
    assert IfManyClasses(e[..2]) == "a ";
  }

  lemma ExampleMerge()
    ensures Merge("btn", "a c ") == Some("btn a c ")
  {
    assert "btn"[0] == 'b' && !IsBlank("btn");
    assert "a c "[0] == 'a' && !IsBlank("a c ");
    assert "btn" + " " + "a c " == "btn a c ";
  }

  lemma ManyIfTrailingSpaceExample()
    ensures var declared := [Attr(ClassAttribute, StringValue("btn"))];
      var out := Output(declared, Some("button"), false);
      var r := Process(Defaults.(ifMany := ExampleEntries), declared, out);
      Named(r.attrs, ClassAttribute) == [Attr(ClassAttribute, StringValue("btn a c "))]
  {
    var declared := [Attr(ClassAttribute, StringValue("btn"))];
    var out := Output(declared, Some("button"), false);
    var h := Defaults.(ifMany := ExampleEntries);
    ExampleClasses();
    ExampleMerge();
    assert HasName(declared[0], ClassAttribute);
    assert DeclaredValue(declared, ClassAttribute) == "btn";
    ProcessClasses(h, declared, out);
  }
}

=== FILE: merge.dfy ===
/** The rule both conditional helpers use to combine a declared attribute
    value with the value a condition selected. */
module ConditionalMerge {
  import opened Strings
  import opened TagOutput

  /** `ValidationHelper.GetString(value, "")`: the display text of a value, "" for null. */
  function DisplayText(v: Value): string {
    match v
    case StringValue(s) => s
    case IntValue(n) => IntegerText(n)
    case NullValue => ""
  }

  /** The value declared on the element for `name` (first match, ignoring
      case), or "" when there is none. */
  function DeclaredValue(declared: seq<Attr>, name: string): (r: string)
    ensures Named(declared, name) == [] ==> r == ""
    ensures Named(declared, name) != [] ==> r == DisplayText(Named(declared, name)[0].value)
  {
    match Lookup(declared, name)
    case None => ""
    case Some(v) => DisplayText(v)
  }

  /** The four-case merge of an existing value with an incoming one: None
      when nothing is written, Some(w) when the attribute is set to `w`. */
  function Merge(existing: string, incoming: string): (r: Option<string>)
    ensures r.None? <==> IsBlank(incoming)
    ensures r.Some? && IsBlank(existing) ==> r.value == incoming
    ensures r.Some? && !IsBlank(existing) ==> r.value == existing + " " + incoming
  {
    if IsBlank(existing) && IsBlank(incoming) then None
    else if IsBlank(existing) then Some(incoming)
    else if IsBlank(incoming) then None
    else Some(existing + " " + incoming)
  }

  /** A written value is never blank, ends with the incoming value, and keeps
      a non-blank existing value as its prefix. */
  lemma MergeKeepsBoth(existing: string, incoming: string)
    requires Merge(existing, incoming).Some?
    ensures !IsBlank(Merge(existing, incoming).value)
    ensures var w := Merge(existing, incoming).value;
      |incoming| <= |w| && w[|w| - |incoming|..] == incoming
    ensures !IsBlank(existing) ==> var w := Merge(existing, incoming).value;
      |existing| < |w| && w[..|existing|] == existing && w[|existing|] == ' '
  {
    var w := Merge(existing, incoming).value;
    assert !IsBlank(incoming);
    var k :| 0 <= k < |incoming| && !IsWhiteSpace(incoming[k]);
    assert w[|w| - |incoming| + k] == incoming[k];
  }

  /** `SetAttributeValue` / `SetClasses`: applies the merge to the output. */
  function SetMerged(attrs: seq<Attr>, name: string, existing: string, incoming: string): (r: seq<Attr>)
    ensures IsBlank(incoming) ==> r == attrs
    ensures !IsBlank(incoming) ==> Named(r, name) == [Attr(name, StringValue(Merge(existing, incoming).value))]
    ensures Named(r, name) == Outcome(Named(attrs, name), name, Merge(existing, incoming))
    ensures forall m {:trigger Named(r, m)} :: !EqualsIgnoreCase(m, name) ==> Named(r, m) == Named(attrs, m)
  {
    match Merge(existing, incoming)
    case None => attrs
    case Some(w) => SetAttribute(attrs, name, StringValue(w))
  }
}

=== FILE: responsive_image.dfy ===
/** `ImageTagHelper`: renders an `<img>` from an image descriptor — a
    resized `src`, an optional responsive `srcset`/`sizes` pair, the
    dimensions and the text attributes — or an error attribute when the
    descriptor has no path, or nothing at all when no descriptor is bound. */
module ResponsiveImage {
  import opened Strings
  import opened TagOutput

  const ImageMarker := "xpc-image"
  const ConstraintMarker := "xpc-image-size-constraint"
  const SizesMarker := "xpc-image-sizes"
  const SrcSetMarker := "xpc-image-srcset"

  /** `data-{TagHelperAttribute}-error` */
  const ErrorAttribute := "data-xpc-image-error"
  const MissingPathMessage := "Image path is missing"

  const Src := "src"
  const SrcSet := "srcset"
  const Sizes := "sizes"
  const Width := "width"
  const Height := "height"
  const Alt := "alt"
  const Title := "title"
  const Loading := "loading"
  const Lazy := "lazy"

  /** Kentico's `SizeConstraint`. The helper builds `Empty` (its default)
      and `MaxWidthOrHeight` itself; any other constraint a page binds is
      handed to the resize service unread, so it is one opaque `Bound` case. */
  datatype SizeConstraint =
    | Empty
    | MaxWidthOrHeight(limit: int)
    | Bound(id: nat)

  /** `IImageViewModel` */
  datatype ImageModel = ImageModel(
    relativePath: string,
    altText: Option<string>,
    title: Option<string>,
    width: int,
    height: int)

  /** One `SrcSet` entry (factor, maxWidthOrHeight): a pixel-density candidate. */
  datatype DensityEntry = DensityEntry(factor: real, maxWidthOrHeight: int)

  /** One `Sizes` entry (maxWidthOrHeight, xDescriptor): a width candidate
      and the media condition that goes with it. */
  datatype WidthEntry = WidthEntry(maxWidthOrHeight: int, descriptor: string)

  /** The helper's bound properties. `alt`, `title` and `loading` are the
      overrides the element may declare. */
  datatype Helper = Helper(
    image: Option<ImageModel>,
    constraint: SizeConstraint,
    sizes: seq<WidthEntry>,
    srcSet: seq<DensityEntry>,
    alt: string,
    title: string,
    loading: string)

  /** What the helper calls but cannot see: the URL of a resized image
      (`new FileUrl(path, true).WithSizeConstraint(c).RelativePath`) and the
      text interpolation gives a `double` factor. */
  datatype ImageService = ImageService(resize: (string, SizeConstraint) -> string, formatFactor: real -> string)

  // ---------------------------------------------------------------------
  // Names

  predicate IsMarker(name: string) {
    || EqualsIgnoreCase(name, ImageMarker)
    || EqualsIgnoreCase(name, ConstraintMarker)
    || EqualsIgnoreCase(name, SizesMarker)
    || EqualsIgnoreCase(name, SrcSetMarker)
  }

  /** The attributes a non-blank path may write. */
  predicate IsRendered(name: string) {
    || EqualsIgnoreCase(name, Src)
    || EqualsIgnoreCase(name, SrcSet)
    || EqualsIgnoreCase(name, Sizes)
    || EqualsIgnoreCase(name, Width)
    || EqualsIgnoreCase(name, Height)
    || EqualsIgnoreCase(name, Alt)
    || EqualsIgnoreCase(name, Title)
    || EqualsIgnoreCase(name, Loading)
  }

  /** The names of one length that the rendering writes are still different names. */
  lemma RenderedNamesDistinct()
    ensures !EqualsIgnoreCase(Src, Alt)
    ensures !EqualsIgnoreCase(SrcSet, Height)
    ensures !EqualsIgnoreCase(Sizes, Width) && !EqualsIgnoreCase(Sizes, Title) && !EqualsIgnoreCase(Width, Title)
  {
    DifferAt(Src, Alt, 0);
    DifferAt(SrcSet, Height, 0);
    DifferAt(Sizes, Width, 0);
    DifferAt(Sizes, Title, 0);
    DifferAt(Width, Title, 0);
  }

  // ---------------------------------------------------------------------
  // Responsive candidates

  /** The descriptor's URL resized to fit `limit` on its longer side. */
  function Resized(svc: ImageService, path: string, limit: int): string {
    svc.resize(path, MaxWidthOrHeight(limit))
  }

  /** "{url} {factor}x" */
  function DensityCandidate(svc: ImageService, path: string, e: DensityEntry): string {
    Resized(svc, path, e.maxWidthOrHeight) + " " + svc.formatFactor(e.factor) + "x"
  }

  /** "{url} {maxWidthOrHeight}w" */
  function WidthCandidate(svc: ImageService, path: string, e: WidthEntry): string {
    Resized(svc, path, e.maxWidthOrHeight) + " " + IntegerText(e.maxWidthOrHeight) + "w"
  }

  /** "(max-width: {xDescriptor}) {maxWidthOrHeight}px" */
  function MediaCondition(e: WidthEntry): string {
    "(max-width: " + e.descriptor + ") " + IntegerText(e.maxWidthOrHeight) + "px"
  }

  /** Reference definitions: one candidate per entry, in input order. */
  function DensityCandidates(svc: ImageService, path: string, entries: seq<DensityEntry>): (r: seq<string>)
    ensures |r| == |entries| && forall i | 0 <= i < |entries| :: r[i] == DensityCandidate(svc, path, entries[i])
  {
    seq(|entries|, i requires 0 <= i < |entries| => DensityCandidate(svc, path, entries[i]))
  }

  function WidthCandidates(svc: ImageService, path: string, entries: seq<WidthEntry>): (r: seq<string>)
    ensures |r| == |entries| && forall i | 0 <= i < |entries| :: r[i] == WidthCandidate(svc, path, entries[i])
  {
    seq(|entries|, i requires 0 <= i < |entries| => WidthCandidate(svc, path, entries[i]))
  }

  function MediaConditions(entries: seq<WidthEntry>): (r: seq<string>)
    ensures |r| == |entries| && forall i | 0 <= i < |entries| :: r[i] == MediaCondition(entries[i])
  {
    seq(|entries|, i requires 0 <= i < |entries| => MediaCondition(entries[i]))
  }

  /** The density loop's StringBuilder: each candidate followed by a comma. */
  function DensityBuilder(svc: ImageService, path: string, entries: seq<DensityEntry>): string
  {
    Appended(DensityCandidates(svc, path, entries), ',')
  }

  /** The width loop's srcset StringBuilder: each width candidate followed by a comma. */
  function WidthBuilder(svc: ImageService, path: string, entries: seq<WidthEntry>): string
  {
    Appended(WidthCandidates(svc, path, entries), ',')
  }

  /** The width loop's sizes StringBuilder, filled in the same iterations:
      each media condition followed by a comma. */
  function SizesBuilder(entries: seq<WidthEntry>): string
  {
    Appended(MediaConditions(entries), ',')
  }

  /** The values `SetSrcSet` writes, if any. */
  datatype Lists = Lists(srcset: Option<string>, sizes: Option<string>)

  /** Reference definition: density candidates when `SrcSet` has entries,
      otherwise width candidates with their media conditions when `Sizes`
      has entries, each list comma-joined; nothing when both are empty. */
  function ResponsiveLists(svc: ImageService, path: string, h: Helper): (r: Lists)
    ensures r.srcset.None? <==> |h.srcSet| == 0 && |h.sizes| == 0
    ensures r.sizes.Some? <==> |h.srcSet| == 0 && |h.sizes| > 0
    ensures r.sizes.Some? ==> r.srcset.Some?
  {
    if |h.srcSet| > 0 then Lists(Some(Join(DensityCandidates(svc, path, h.srcSet), ',')), None)
    else if |h.sizes| > 0 then
      Lists(Some(Join(WidthCandidates(svc, path, h.sizes), ',')), Some(Join(MediaConditions(h.sizes), ',')))
    else Lists(None, None)
  }

  /** A StringBuilder with its last character cut off (`Length--`), or
      None when it is empty and nothing is written. */
  function Trimmed(sb: string): Option<string> {
    if |sb| > 0 then Some(sb[..|sb| - 1]) else None
  }

  function SetIfAny(attrs: seq<Attr>, name: string, v: Option<string>): (r: seq<Attr>)
    ensures Named(r, name) == Outcome(Named(attrs, name), name, v)
    ensures forall m {:trigger Named(r, m)} :: !EqualsIgnoreCase(m, name) ==> Named(r, m) == Named(attrs, m)
  {
    match v
    case None => attrs
    case Some(s) => SetAttribute(attrs, name, StringValue(s))
  }

  /** `SetSrcSet`: writes the comma-joined candidate lists with no trailing
      comma; `Sizes` is ignored when `SrcSet` has entries. */
  function SetSrcSetLists(attrs: seq<Attr>, svc: ImageService, path: string, h: Helper): (r: seq<Attr>)
    ensures Named(r, SrcSet) == Outcome(Named(attrs, SrcSet), SrcSet, ResponsiveLists(svc, path, h).srcset)
    ensures Named(r, Sizes) == Outcome(Named(attrs, Sizes), Sizes, ResponsiveLists(svc, path, h).sizes)
    ensures forall m {:trigger Named(r, m)} ::
      !EqualsIgnoreCase(m, SrcSet) && !EqualsIgnoreCase(m, Sizes) ==> Named(r, m) == Named(attrs, m)
  {
    var builders :=
      if |h.srcSet| > 0 then (DensityBuilder(svc, path, h.srcSet), "")
      else if |h.sizes| > 0 then (WidthBuilder(svc, path, h.sizes), SizesBuilder(h.sizes))
      else ("", "");
    BuildersTrimToLists(svc, path, h);
    SetIfAny(SetIfAny(attrs, SrcSet, Trimmed(builders.0)), Sizes, Trimmed(builders.1))
  }

  /** Cutting the trailing comma off each StringBuilder gives the
      comma-joined reference lists. */
  lemma BuildersTrimToLists(svc: ImageService, path: string, h: Helper)
    ensures var builders :=
      if |h.srcSet| > 0 then (DensityBuilder(svc, path, h.srcSet), "")
      else if |h.sizes| > 0 then (WidthBuilder(svc, path, h.sizes), SizesBuilder(h.sizes))
      else ("", "");
      && Trimmed(builders.0) == ResponsiveLists(svc, path, h).srcset
      && Trimmed(builders.1) == ResponsiveLists(svc, path, h).sizes
  {
    if |h.srcSet| > 0 {
      AppendedIsTerminated(DensityCandidates(svc, path, h.srcSet), ',');
      TerminatedTrimIsJoin(DensityCandidates(svc, path, h.srcSet), ',');
    } else if |h.sizes| > 0 {
      AppendedIsTerminated(WidthCandidates(svc, path, h.sizes), ',');
      AppendedIsTerminated(MediaConditions(h.sizes), ',');
      TerminatedTrimIsJoin(WidthCandidates(svc, path, h.sizes), ',');
      TerminatedTrimIsJoin(MediaConditions(h.sizes), ',');
    }
  }

  /** A srcset whose candidate URLs hold no comma splits back into its
      candidates: one per `SrcSet` entry, in input order. */
  lemma DensitySrcSetSplits(svc: ImageService, path: string, h: Helper)
    requires |h.srcSet| > 0
    requires forall i | 0 <= i < |h.srcSet| :: ',' !in DensityCandidate(svc, path, h.srcSet[i])
    ensures ResponsiveLists(svc, path, h).srcset.Some?
    ensures Split(ResponsiveLists(svc, path, h).srcset.value, ',') == DensityCandidates(svc, path, h.srcSet)
    ensures ResponsiveLists(svc, path, h).sizes.None?
  {
    SplitJoin(DensityCandidates(svc, path, h.srcSet), ',');
  }

  /** Width mode writes srcset and sizes with the same number of entries:
      each splits back into its list, one item per `Sizes` entry. */
  lemma WidthListsSplit(svc: ImageService, path: string, h: Helper)
    requires |h.srcSet| == 0 && |h.sizes| > 0
    requires forall i | 0 <= i < |h.sizes| :: ',' !in Resized(svc, path, h.sizes[i].maxWidthOrHeight)
    requires forall i | 0 <= i < |h.sizes| :: ',' !in h.sizes[i].descriptor
    ensures var lists := ResponsiveLists(svc, path, h);
      && lists.srcset.Some? && lists.sizes.Some?
      && Split(lists.srcset.value, ',') == WidthCandidates(svc, path, h.sizes)
      && Split(lists.sizes.value, ',') == MediaConditions(h.sizes)
      && |Split(lists.srcset.value, ',')| == |Split(lists.sizes.value, ',')| == |h.sizes|
  {
    forall i | 0 <= i < |h.sizes| ensures ',' !in WidthCandidate(svc, path, h.sizes[i]) {
      NoCommaInIntegerText(h.sizes[i].maxWidthOrHeight);
    }
    forall i | 0 <= i < |h.sizes| ensures ',' !in MediaCondition(h.sizes[i]) {
      NoCommaInIntegerText(h.sizes[i].maxWidthOrHeight);
    }
    SplitJoin(WidthCandidates(svc, path, h.sizes), ',');
    SplitJoin(MediaConditions(h.sizes), ',');
  }

  lemma {:induction false} NoCommaInNaturalText(n: nat)
    ensures ',' !in NaturalText(n)
    decreases n
  {
    if n >= 10 {
      NoCommaInNaturalText(n / 10);
    }
  }

  lemma NoCommaInIntegerText(n: int)
    ensures ',' !in IntegerText(n)
  {
    if n < 0 {
      NoCommaInNaturalText(-n);
    } else {
      NoCommaInNaturalText(n);
    }
  }

  // ---------------------------------------------------------------------
  // Rendering

  /** Xperience cannot constrain these formats: a case-insensitive substring
      test anywhere in the path, not an extension test. */
  predicate SkipsConstraining(path: string) {
    ContainsIgnoreCase(path, ".svg") || ContainsIgnoreCase(path, ".webp")
  }

  /** Any path that mentions `.svg` or `.webp`, in any letter case and at any
      position, skips constraining. */
  lemma MentionSkips(before: string, mention: string, after: string)
    requires EqualsIgnoreCase(mention, ".svg") || EqualsIgnoreCase(mention, ".webp")
    ensures SkipsConstraining(before + mention + after)
  {
    var path := before + mention + after;
    assert |Upper(mention)| == |mention|;
    assert path[|before|..|before| + |mention|] == mention;
    assert OccursAt(path, mention, |before|);
    if EqualsIgnoreCase(mention, ".svg") {
      assert OccursAt(path, ".svg", |before|);
    } else {
      assert OccursAt(path, ".webp", |before|);
    }
  }

  /** Reference definition of `src`, `srcset` and `sizes` after rendering
      `path`, over what `before` held: the raw path for images that cannot be
      constrained, otherwise the resized URL and the responsive lists. */
  predicate SourceRendered(r: seq<Attr>, before: seq<Attr>, svc: ImageService, h: Helper, path: string) {
    var lists := ResponsiveLists(svc, path, h);
    && Named(r, Src) == [Attr(Src, StringValue(if SkipsConstraining(path) then path else svc.resize(path, h.constraint)))]
    && Named(r, SrcSet) == (if SkipsConstraining(path) then Named(before, SrcSet) else Outcome(Named(before, SrcSet), SrcSet, lists.srcset))
    && Named(r, Sizes) == (if SkipsConstraining(path) then Named(before, Sizes) else Outcome(Named(before, Sizes), Sizes, lists.sizes))
  }

  /** Reference definition of `width` and `height`: written only when positive. */
  predicate DimensionsRendered(r: seq<Attr>, before: seq<Attr>, img: ImageModel) {
    && Named(r, Width) == (if img.width > 0 then [Attr(Width, IntValue(img.width))] else Named(before, Width))
    && Named(r, Height) == (if img.height > 0 then [Attr(Height, IntValue(img.height))] else Named(before, Height))
  }

  /** Reference definition of `alt`, `title` and `loading`: the descriptor's
      text (null when it has none) and "lazy", each only when no non-blank
      override was declared. */
  predicate TextRendered(r: seq<Attr>, before: seq<Attr>, h: Helper, img: ImageModel) {
    && Named(r, Alt) == (if IsBlank(h.alt) then [Attr(Alt, OptionalText(img.altText))] else Named(before, Alt))
    && Named(r, Title) == (if IsBlank(h.title) then [Attr(Title, OptionalText(img.title))] else Named(before, Title))
    && Named(r, Loading) == (if IsBlank(h.loading) then [Attr(Loading, StringValue(Lazy))] else Named(before, Loading))
  }

  /** Everything a non-blank path renders. */
  predicate RendersImage(r: seq<Attr>, before: seq<Attr>, svc: ImageService, h: Helper, img: ImageModel) {
    && SourceRendered(r, before, svc, h, img.relativePath)
    && DimensionsRendered(r, before, img)
    && TextRendered(r, before, h, img)
  }

  /** `src`, and for constrainable images `srcset`/`sizes`. */
  function Source(attrs: seq<Attr>, svc: ImageService, h: Helper, path: string): (r: seq<Attr>)
    ensures SourceRendered(r, attrs, svc, h, path)
    ensures forall m {:trigger Named(r, m)} ::
      !EqualsIgnoreCase(m, Src) && !EqualsIgnoreCase(m, SrcSet) && !EqualsIgnoreCase(m, Sizes) ==> Named(r, m) == Named(attrs, m)
  {
    if SkipsConstraining(path) then SetAttribute(attrs, Src, StringValue(path))
    else SetSrcSetLists(SetAttribute(attrs, Src, StringValue(svc.resize(path, h.constraint))), svc, path, h)
  }

  /** `width` and `height`, each only when the descriptor's value is positive. */
  function Dimensions(attrs: seq<Attr>, img: ImageModel): (r: seq<Attr>)
    ensures DimensionsRendered(r, attrs, img)
    ensures forall m {:trigger Named(r, m)} ::
      !EqualsIgnoreCase(m, Width) && !EqualsIgnoreCase(m, Height) ==> Named(r, m) == Named(attrs, m)
  {
    var a := if img.width > 0 then SetAttribute(attrs, Width, IntValue(img.width)) else attrs;
    if img.height > 0 then SetAttribute(a, Height, IntValue(img.height)) else a
  }

  /** A nullable string as an attribute value. */
  function OptionalText(s: Option<string>): Value {
    match s
    case None => NullValue
    case Some(t) => StringValue(t)
  }

  /** `alt`, `title` and `loading`. */
  function TextAttributes(attrs: seq<Attr>, h: Helper, img: ImageModel): (r: seq<Attr>)
    ensures TextRendered(r, attrs, h, img)
    ensures forall m {:trigger Named(r, m)} ::
      !EqualsIgnoreCase(m, Alt) && !EqualsIgnoreCase(m, Title) && !EqualsIgnoreCase(m, Loading) ==> Named(r, m) == Named(attrs, m)
  {
    var a := if IsBlank(h.alt) then SetAttribute(attrs, Alt, OptionalText(img.altText)) else attrs;
    var b := if IsBlank(h.title) then SetAttribute(a, Title, OptionalText(img.title)) else a;
    if IsBlank(h.loading) then SetAttribute(b, Loading, StringValue(Lazy)) else b
  }

  predicate MarkersCleared(attrs: seq<Attr>) {
    && Named(attrs, ImageMarker) == []
    && Named(attrs, ConstraintMarker) == []
    && Named(attrs, SizesMarker) == []
    && Named(attrs, SrcSetMarker) == []
  }

  /** `ClearTagHelperAttributes`: removes the four marker attributes and nothing else. */
  function ClearMarkers(attrs: seq<Attr>): (r: seq<Attr>)
    ensures MarkersCleared(r)
    ensures forall m {:trigger Named(r, m)} :: !IsMarker(m) ==> Named(r, m) == Named(attrs, m)
  {
    RemoveAll(RemoveAll(RemoveAll(RemoveAll(attrs, ImageMarker), ConstraintMarker), SizesMarker), SrcSetMarker)
  }

  lemma PastSource(attrs: seq<Attr>, svc: ImageService, h: Helper, path: string, n: string)
    requires !EqualsIgnoreCase(n, Src) && !EqualsIgnoreCase(n, SrcSet) && !EqualsIgnoreCase(n, Sizes)
    ensures Named(Source(attrs, svc, h, path), n) == Named(attrs, n)
  {
  }

  lemma PastDimensions(attrs: seq<Attr>, img: ImageModel, n: string)
    requires !EqualsIgnoreCase(n, Width) && !EqualsIgnoreCase(n, Height)
    ensures Named(Dimensions(attrs, img), n) == Named(attrs, n)
  {
  }

  lemma PastText(attrs: seq<Attr>, h: Helper, img: ImageModel, n: string)
    requires !EqualsIgnoreCase(n, Alt) && !EqualsIgnoreCase(n, Title) && !EqualsIgnoreCase(n, Loading)
    ensures Named(TextAttributes(attrs, h, img), n) == Named(attrs, n)
  {
  }

  /** The attributes a non-blank path renders, before the markers are cleared. */
  function Described(attrs: seq<Attr>, svc: ImageService, h: Helper, img: ImageModel): (r: seq<Attr>)
    ensures forall m {:trigger Named(r, m)} :: !IsRendered(m) ==> Named(r, m) == Named(attrs, m)
  {
    TextAttributes(Dimensions(Source(attrs, svc, h, img.relativePath), img), h, img)
  }

  /** The three steps of a non-blank rendering write disjoint names, so
      together they render everything. */
  lemma DescribedRenders(attrs: seq<Attr>, svc: ImageService, h: Helper, img: ImageModel)
    ensures RendersImage(Described(attrs, svc, h, img), attrs, svc, h, img)
  {
    var a := Source(attrs, svc, h, img.relativePath);
    var b := Dimensions(a, img);
    var c := TextAttributes(b, h, img);
    assert c == Described(attrs, svc, h, img);
    RenderedNamesDistinct();
    SourceNamesKept(attrs, a, b, c, svc, h, img);
    DimensionNamesKept(attrs, svc, h, img);
    TextNamesKept(attrs, svc, h, img);
  }

  lemma SourceNamesKept(attrs: seq<Attr>, a: seq<Attr>, b: seq<Attr>, c: seq<Attr>, svc: ImageService, h: Helper, img: ImageModel)
    requires a == Source(attrs, svc, h, img.relativePath) && b == Dimensions(a, img) && c == TextAttributes(b, h, img)
    ensures SourceRendered(c, attrs, svc, h, img.relativePath)
  {
    RenderedNamesDistinct();
    PastDimensions(a, img, Src);
    PastDimensions(a, img, SrcSet);
    PastDimensions(a, img, Sizes);
    PastText(b, h, img, Src);
    PastText(b, h, img, SrcSet);
    PastText(b, h, img, Sizes);
  }

  lemma DimensionNamesKept(attrs: seq<Attr>, svc: ImageService, h: Helper, img: ImageModel)
    ensures DimensionsRendered(Described(attrs, svc, h, img), attrs, img)
  {
    var a := Source(attrs, svc, h, img.relativePath);
    var b := Dimensions(a, img);
    RenderedNamesDistinct();
    PastSource(attrs, svc, h, img.relativePath, Width);
    PastSource(attrs, svc, h, img.relativePath, Height);
    PastText(b, h, img, Width);
    PastText(b, h, img, Height);
  }

  lemma TextNamesKept(attrs: seq<Attr>, svc: ImageService, h: Helper, img: ImageModel)
    ensures TextRendered(Described(attrs, svc, h, img), attrs, h, img)
  {
    var a := Source(attrs, svc, h, img.relativePath);
    RenderedNamesDistinct();
    PastSource(attrs, svc, h, img.relativePath, Alt);
    PastSource(attrs, svc, h, img.relativePath, Title);
    PastSource(attrs, svc, h, img.relativePath, Loading);
    PastDimensions(a, img, Alt);
    PastDimensions(a, img, Title);
    PastDimensions(a, img, Loading);
  }

  /** Clearing the markers keeps what was rendered. */
  lemma RendersPastMarkers(d: seq<Attr>, attrs: seq<Attr>, svc: ImageService, h: Helper, img: ImageModel)
    requires RendersImage(d, attrs, svc, h, img)
    ensures RendersImage(ClearMarkers(d), attrs, svc, h, img)
  {
    RenderedAreNotMarkers();
  }

  /** No attribute the rendering writes is a marker. */
  lemma RenderedAreNotMarkers()
    ensures !IsMarker(Src) && !IsMarker(SrcSet) && !IsMarker(Sizes) && !IsMarker(Width) && !IsMarker(Height)
    ensures !IsMarker(Alt) && !IsMarker(Title) && !IsMarker(Loading) && !IsMarker(ErrorAttribute)
    ensures !IsRendered(ErrorAttribute)
  {
  }

  /** `RenderImage`: a blank path only sets the error attribute; otherwise
      `src`, the responsive lists, the dimensions and the text attributes are
      written. Either way the markers are cleared and no other attribute changes. */
  function RenderImage(attrs: seq<Attr>, svc: ImageService, h: Helper, img: ImageModel): (r: seq<Attr>)
    ensures MarkersCleared(r)
    ensures IsBlank(img.relativePath) ==>
      && Named(r, ErrorAttribute) == [Attr(ErrorAttribute, StringValue(MissingPathMessage))]
      && forall m {:trigger Named(r, m)} ::
           !EqualsIgnoreCase(m, ErrorAttribute) && !IsMarker(m) ==> Named(r, m) == Named(attrs, m)
    ensures !IsBlank(img.relativePath) ==>
      Named(r, ErrorAttribute) == Named(attrs, ErrorAttribute) && RendersImage(r, attrs, svc, h, img)
    ensures forall m {:trigger Named(r, m)} ::
      !IsRendered(m) && !EqualsIgnoreCase(m, ErrorAttribute) && !IsMarker(m) ==> Named(r, m) == Named(attrs, m)
  {
    RenderedAreNotMarkers();
    if IsBlank(img.relativePath) then
      ClearMarkers(SetAttribute(attrs, ErrorAttribute, StringValue(MissingPathMessage)))
    else
      var d := Described(attrs, svc, h, img);
      DescribedRenders(attrs, svc, h, img);
      RendersPastMarkers(d, attrs, svc, h, img);
      assert Named(d, ErrorAttribute) == Named(attrs, ErrorAttribute);
      ClearMarkers(d)
  }

  /** `CopyHtmlAttribute(name, context)`: when the output has no attribute
      called `name`, the declared ones are restored. */
  function CopyHtmlAttribute(attrs: seq<Attr>, name: string, declared: seq<Attr>): (r: seq<Attr>)
    ensures Named(r, name) == if Named(attrs, name) == [] then Named(declared, name) else Named(attrs, name)
    ensures forall m {:trigger Named(r, m)} :: !EqualsIgnoreCase(m, name) ==> Named(r, m) == Named(attrs, m)
  {
    if Named(attrs, name) == [] then
      var r := attrs + Named(declared, name);
      assert forall m {:trigger Named(r, m)} :: Named(r, m) == Named(attrs, m) + Named(Named(declared, name), m) by {
        forall m {
          NamedAppend(attrs, Named(declared, name), m);
        }
      }
      assert forall m {:trigger Named(Named(declared, name), m)} ::
        Named(Named(declared, name), m) == if EqualsIgnoreCase(m, name) then Named(declared, name) else [] by {
        forall m {
          NamedOfNamed(declared, name, m);
        }
      }
      r
    else attrs
  }

  /** The first lines of `Process`: each non-blank override is restored from
      the declared attributes under its property name (`nameof`), which
      matches the lower-case attribute ignoring case. */
  function CopyOverrides(attrs: seq<Attr>, declared: seq<Attr>, h: Helper): (r: seq<Attr>)
    ensures Named(r, Alt) == Restored(attrs, declared, Alt, h.alt)
    ensures Named(r, Title) == Restored(attrs, declared, Title, h.title)
    ensures Named(r, Loading) == Restored(attrs, declared, Loading, h.loading)
    ensures forall m {:trigger Named(r, m)} ::
      !EqualsIgnoreCase(m, Alt) && !EqualsIgnoreCase(m, Title) && !EqualsIgnoreCase(m, Loading) ==> Named(r, m) == Named(attrs, m)
  {
    PropertyNamesMatch();
    RenderedNamesDistinct();
    var a := CopyOverride(attrs, declared, "Alt", Alt, h.alt);
    var b := CopyOverride(a, declared, "Title", Title, h.title);
    var c := CopyOverride(b, declared, "Loading", Loading, h.loading);
    assert Named(c, Alt) == Named(b, Alt) == Named(a, Alt);
    assert Named(c, Title) == Named(b, Title) && Named(a, Title) == Named(attrs, Title);
    assert Named(b, Loading) == Named(a, Loading) == Named(attrs, Loading);
    c
  }

  /** One override: `CopyHtmlAttribute(property)` when it is non-blank. */
  function CopyOverride(attrs: seq<Attr>, declared: seq<Attr>, property: string, name: string, override: string): (r: seq<Attr>)
    requires EqualsIgnoreCase(property, name)
    ensures Named(r, name) == Restored(attrs, declared, name, override)
    ensures forall m {:trigger Named(r, m)} :: !EqualsIgnoreCase(m, name) ==> Named(r, m) == Named(attrs, m)
  {
    NamedIgnoresCase(attrs, property, name);
    NamedIgnoresCase(declared, property, name);
    if !IsBlank(override) then
      var c := CopyHtmlAttribute(attrs, property, declared);
      NamedIgnoresCase(c, property, name);
      c
    else attrs
  }

  /** The attributes called `name` once a non-blank `override` had them
      restored from the declared ones. */
  function Restored(attrs: seq<Attr>, declared: seq<Attr>, name: string, override: string): seq<Attr> {
    if !IsBlank(override) && Named(attrs, name) == [] then Named(declared, name) else Named(attrs, name)
  }

  lemma PropertyNamesMatch()
    ensures EqualsIgnoreCase("Alt", Alt) && EqualsIgnoreCase("Title", Title) && EqualsIgnoreCase("Loading", Loading)
  {
    assert Upper("Alt") == "ALT" == Upper(Alt);
    assert Upper("Title") == "TITLE" == Upper(Title);
    assert Upper("Loading") == "LOADING" == Upper(Loading);
  }

  /** `Process`: no descriptor suppresses the element; otherwise it is
      rendered over the attributes with the overrides restored. */
  function Process(h: Helper, svc: ImageService, declared: seq<Attr>, out: Output): (r: Output)
    ensures h.image.None? ==> r.suppressed && r.tagName.None?
    ensures h.image.Some? ==> r.suppressed == out.suppressed && r.tagName == out.tagName && MarkersCleared(r.attrs)
    ensures h.image.Some? && !IsBlank(h.image.value.relativePath) ==>
      RendersImage(r.attrs, CopyOverrides(out.attrs, declared, h), svc, h, h.image.value)
    ensures h.image.Some? && IsBlank(h.image.value.relativePath) ==>
      Named(r.attrs, ErrorAttribute) == [Attr(ErrorAttribute, StringValue(MissingPathMessage))]
  {
    var attrs := CopyOverrides(out.attrs, declared, h);
    match h.image
    case None => Output(attrs, None, true)
    case Some(img) => out.(attrs := RenderImage(attrs, svc, h, img))
  }

  /** Without a descriptor nothing is rendered: the element is suppressed and
      only the overrides are restored. */
  lemma NoImageSuppresses(h: Helper, svc: ImageService, declared: seq<Attr>, out: Output)
    requires h.image.None?
    ensures var r := Process(h, svc, declared, out);
      && r.suppressed && r.tagName.None?
      && forall m {:trigger Named(r.attrs, m)} ::
           !EqualsIgnoreCase(m, Alt) && !EqualsIgnoreCase(m, Title) && !EqualsIgnoreCase(m, Loading)
           ==> Named(r.attrs, m) == Named(out.attrs, m)
  {
  }

  /** A blank path writes the error attribute and none of the image
      attributes; the markers are gone. */
  lemma MissingPathWritesOnlyError(h: Helper, svc: ImageService, declared: seq<Attr>, out: Output, n: string)
    requires h.image.Some? && IsBlank(h.image.value.relativePath)
    requires EqualsIgnoreCase(n, Src) || EqualsIgnoreCase(n, SrcSet) || EqualsIgnoreCase(n, Sizes)
          || EqualsIgnoreCase(n, Width) || EqualsIgnoreCase(n, Height)
    ensures var r := Process(h, svc, declared, out);
      && Named(r.attrs, ErrorAttribute) == [Attr(ErrorAttribute, StringValue(MissingPathMessage))]
      && Named(r.attrs, n) == Named(out.attrs, n)
      && MarkersCleared(r.attrs)
  {
    var attrs := CopyOverrides(out.attrs, declared, h);
    NotErrorNorMarker(n);
    RenderedNamesDistinct();
    NamedIgnoresCase(attrs, n, n);
  }

  /** Names equal to an image attribute ignoring case are neither the error
      attribute, a marker, nor an override. */
  lemma NotErrorNorMarker(n: string)
    requires EqualsIgnoreCase(n, Src) || EqualsIgnoreCase(n, SrcSet) || EqualsIgnoreCase(n, Sizes)
          || EqualsIgnoreCase(n, Width) || EqualsIgnoreCase(n, Height)
    ensures !EqualsIgnoreCase(n, ErrorAttribute) && !IsMarker(n)
    ensures !EqualsIgnoreCase(n, Alt) && !EqualsIgnoreCase(n, Title) && !EqualsIgnoreCase(n, Loading)
  {
    RenderedNamesDistinct();
  }

  /** A non-blank override survives rendering: the attribute keeps what the
      output or, failing that, the declaration held. */
  lemma OverrideSurvives(h: Helper, svc: ImageService, declared: seq<Attr>, out: Output)
    requires h.image.Some? && !IsBlank(h.image.value.relativePath)
    requires !IsBlank(h.alt)
    ensures Named(Process(h, svc, declared, out).attrs, Alt) ==
      if Named(out.attrs, Alt) == [] then Named(declared, Alt) else Named(out.attrs, Alt)
  {
  }

  /** When `SrcSet` has entries, `Sizes` makes no difference at all. */
  lemma DensityModeIgnoresSizes(h: Helper, svc: ImageService, declared: seq<Attr>, out: Output, sizes: seq<WidthEntry>)
    requires |h.srcSet| > 0
    ensures Process(h, svc, declared, out) == Process(h.(sizes := sizes), svc, declared, out)
  {
    var h2 := h.(sizes := sizes);
    var attrs := CopyOverrides(out.attrs, declared, h);
    assert CopyOverrides(out.attrs, declared, h2) == attrs;
    if h.image.Some? {
      RenderIgnoresSizes(attrs, svc, h, h.image.value, sizes);
    }
  }

  lemma RenderIgnoresSizes(attrs: seq<Attr>, svc: ImageService, h: Helper, img: ImageModel, sizes: seq<WidthEntry>)
    requires |h.srcSet| > 0
    ensures RenderImage(attrs, svc, h, img) == RenderImage(attrs, svc, h.(sizes := sizes), img)
  {
    var h2 := h.(sizes := sizes);
    SourceIgnoresSizes(attrs, svc, h, img.relativePath, sizes);
    assert Described(attrs, svc, h, img) == Described(attrs, svc, h2, img);
  }

  lemma SourceIgnoresSizes(attrs: seq<Attr>, svc: ImageService, h: Helper, path: string, sizes: seq<WidthEntry>)
    requires |h.srcSet| > 0
    ensures Source(attrs, svc, h, path) == Source(attrs, svc, h.(sizes := sizes), path)
  {
    var h2 := h.(sizes := sizes);
    if !SkipsConstraining(path) {
      var a := SetAttribute(attrs, Src, StringValue(svc.resize(path, h.constraint)));
      assert SetSrcSetLists(a, svc, path, h) == SetSrcSetLists(a, svc, path, h2);
    }
  }

  /** ".svg" anywhere in the path switches resizing off, even when the path
      ends in another extension. */
  lemma SubstringNotExtensionExample()
    ensures SkipsConstraining("a.svg.png")
  {
    assert "a.svg.png"[1..5] == ".svg";
    assert OccursAt("a.svg.png", ".svg", 1);
  }

  /** Such a path is rendered as `src` unchanged, without resizing. */
  lemma SvgKeepsRawPathExample(svc: ImageService, out: Output)
    ensures var img := ImageModel("a.svg.png", None, None, 0, 0);
      var h := Helper(Some(img), Empty, [], [], "", "", "");
      Named(Process(h, svc, [], out).attrs, Src) == [Attr(Src, StringValue("a.svg.png"))]
  {
    SubstringNotExtensionExample();
    var img := ImageModel("a.svg.png", None, None, 0, 0);
    assert !IsBlank(img.relativePath) by {
      assert !IsWhiteSpace(img.relativePath[0]);
    }
  }

  const WidthExampleEntries := [WidthEntry(320, "640px"), WidthEntry(640, "1280px")]

  lemma IntegerText320()
    ensures IntegerText(320) == "320"
  {
    assert DigitChar(0) == '0' && DigitChar(2) == '2' && DigitChar(3) == '3';
    assert NaturalText(3) == "3" && NaturalText(32) == "32";
  }

  lemma IntegerText640()
    ensures IntegerText(640) == "640"
  {
    assert DigitChar(0) == '0' && DigitChar(4) == '4' && DigitChar(6) == '6';
    assert NaturalText(6) == "6" && NaturalText(64) == "64";
  }

  lemma WidthExampleConditions()
    ensures MediaConditions(WidthExampleEntries) == ["(max-width: 640px) 320px", "(max-width: 1280px) 640px"]
  {
    IntegerText320();
    IntegerText640();
    var e := WidthExampleEntries;
    assert MediaCondition(e[0]) == "(max-width: 640px) 320px";
    assert MediaCondition(e[1]) == "(max-width: 1280px) 640px";
  }

  lemma WidthExampleJoined()
    ensures Join(MediaConditions(WidthExampleEntries), ',') == "(max-width: 640px) 320px" + "," + "(max-width: 1280px) 640px"
  {
    WidthExampleConditions();
    var parts := ["(max-width: 640px) 320px", "(max-width: 1280px) 640px"];
    assert parts[1..] == ["(max-width: 1280px) 640px"];
    assert Join(parts[1..], ',') == parts[1];
  }

  /** Width mode: the media conditions are comma-joined in input order with
      no trailing comma. */
  lemma WidthModeSizesExample(svc: ImageService, path: string)
    ensures ResponsiveLists(svc, path, Helper(None, Empty, WidthExampleEntries, [], "", "", "")).sizes
      == Some("(max-width: 640px) 320px" + "," + "(max-width: 1280px) 640px")
  {
    WidthExampleJoined();
  }
}

=== FILE: rich_text_wrap.dfy ===
/** `RichTextWrapTagHelper`: drops the wrapping element when the rich text it
    wraps already opens with an element of the same name, so that rich text
    ends up wrapped exactly once. */
module RichTextWrap {
  import opened Strings
  import opened TagOutput

  const Marker := "xpc-rich-text-wrap"

  /** What the content must open with for the wrapper to be dropped: "<",
      the wrapper's tag name and a space. */
  function Opening(tagName: string): string {
    "<" + tagName + " "
  }

  /** `contentText.StartsWith("<")` */
  predicate StartsWithAngle(text: string) {
    |text| > 0 && text[0] == '<'
  }

  /** `ProcessAsync` once the child content is known: the marker goes, and the
      tag name goes too when the left-trimmed content opens with the wrapper's
      own opening, compared ignoring case. */
  function Process(tagName: string, content: string, out: Output): (r: Output)
    ensures Named(r.attrs, Marker) == []
    ensures forall m {:trigger Named(r.attrs, m)} :: !EqualsIgnoreCase(m, Marker) ==> Named(r.attrs, m) == Named(out.attrs, m)
    ensures r.suppressed == out.suppressed
    ensures r.tagName.None? || r.tagName == out.tagName
  {
    var text := TrimStart(content);
    var attrs := RemoveAll(out.attrs, Marker);
    if !StartsWithAngle(text) then out.(attrs := attrs)
    else if StartsWithIgnoreCase(text, Opening(tagName)) then out.(attrs := attrs, tagName := None)
    else out.(attrs := attrs)
  }

  /** Reference definition: some whitespace-only prefix of the content is
      followed by the wrapper's opening, ignoring case. */
  predicate OpensWithWrapper(tagName: string, content: string) {
    exists k: nat | k <= |content| :: IsBlank(content[..k]) && StartsWithIgnoreCase(content[k..], Opening(tagName))
  }

  lemma UpperOfAngle(c: char)
    ensures UpperChar(c) == '<' <==> c == '<'
  {
  }

  /** The wrapper is dropped exactly when the content, after leading
      whitespace, opens with "<" + tag name + " " in any letter case; in
      every other case the tag name is kept. */
  lemma DroppedIff(tagName: string, content: string, out: Output)
    ensures Process(tagName, content, out).tagName ==
      if OpensWithWrapper(tagName, content) then None else out.tagName
  {
    var text := TrimStart(content);
    if StartsWithIgnoreCase(text, Opening(tagName)) {
      OpeningWitness(tagName, content);
      AngleGuardIsImplied(tagName, text);
    }
    if OpensWithWrapper(tagName, content) {
      OpeningFound(tagName, content);
    }
  }

  /** The trimmed text opening with the wrapper's opening gives a witness. */
  lemma OpeningWitness(tagName: string, content: string)
    requires StartsWithIgnoreCase(TrimStart(content), Opening(tagName))
    ensures OpensWithWrapper(tagName, content)
  {
    var text := TrimStart(content);
    var j := |content| - |text|;
    assert content[j..] == text;
  }

  /** A witness means the trimmed text opens with the wrapper's opening. */
  lemma OpeningFound(tagName: string, content: string)
    requires OpensWithWrapper(tagName, content)
    ensures StartsWithIgnoreCase(TrimStart(content), Opening(tagName))
  {
    var k: nat :| k <= |content| && IsBlank(content[..k]) && StartsWithIgnoreCase(content[k..], Opening(tagName));
    AngleGuardIsImplied(tagName, content[k..]);
    TrimStopsAtAngle(content, k);
  }

  /** Trimming stops at the first "<" after a whitespace-only prefix. */
  lemma TrimStopsAtAngle(content: string, k: nat)
    requires k <= |content| && IsBlank(content[..k]) && StartsWithAngle(content[k..])
    ensures TrimStart(content) == content[k..]
  {
    var rest := content[k..];
    assert content == content[..k] + rest;
    TrimStartSkipsBlankPrefix(content[..k], rest);
    assert !IsWhiteSpace(rest[0]);
  }

  /** The `StartsWith("<")` guard never decides anything on its own: the
      opening starts with "<", so the second test already implies it. */
  lemma AngleGuardIsImplied(tagName: string, text: string)
    requires StartsWithIgnoreCase(text, Opening(tagName))
    ensures StartsWithAngle(text)
  {
    var o := Opening(tagName);
    assert Upper(text[..|o|])[0] == Upper(o)[0];
    assert text[..|o|][0] == text[0];
    UpperOfAngle(text[0]);
  }

  /** Leading whitespace never changes the result. */
  lemma LeadingWhitespaceIgnored(tagName: string, w: string, content: string, out: Output)
    requires IsBlank(w)
    ensures Process(tagName, w + content, out) == Process(tagName, content, out)
  {
    TrimStartSkipsBlankPrefix(w, content);
  }

  /** Content that does not open with an element keeps the wrapper. */
  lemma NoElementKeepsWrapper(tagName: string, content: string, out: Output)
    requires !StartsWithAngle(TrimStart(content))
    ensures Process(tagName, content, out) == out.(attrs := RemoveAll(out.attrs, Marker))
  {
  }

  /** Only the marker and the tag name can change: nothing else of the
      output is touched. */
  lemma OnlyMarkerAndTagChange(tagName: string, content: string, out: Output)
    ensures var r := Process(tagName, content, out);
      r == out.(attrs := RemoveAll(out.attrs, Marker), tagName := r.tagName)
  {
  }

  // ---------------------------------------------------------------------
  // Examples

  /** `<p>hi</p>` inside a `p` wrapper: no space after the tag name, so the
      wrapper stays. */
  lemma ParagraphWithoutAttributesKept(out: Output)
    ensures Process("p", "<p>hi</p>", out).tagName == out.tagName
  {
    DifferAt("<p>", Opening("p"), 2);
  }

  /** `<divider x>` inside a `div` wrapper: a longer name that merely starts
      with the wrapper's name keeps the wrapper. */
  lemma LongerNameKept(out: Output)
    ensures Process("div", "<divider x>", out).tagName == out.tagName
  {
    DifferAt("<divi", Opening("div"), 4);
  }

  /** Indented `<P class="x">` inside a `p` wrapper: the wrapper goes,
      whatever the letter case. */
  lemma SameElementDropped(out: Output)
    ensures Process("p", "  <P class=\"x\">hi</P>", out).tagName.None?
  {
    var content := "  <P class=\"x\">hi</P>";
    assert IsBlank(content[..2]);
    assert content[2..][..3] == "<P ";
    assert Upper("<P ") == Upper(Opening("p"));
    assert OpensWithWrapper("p", content);
    DroppedIff("p", content, out);
  }

  /** Plain text keeps the wrapper. */
  lemma PlainTextKept(out: Output)
    ensures Process("p", "plain text", out).tagName == out.tagName
  {
  }

  /** A different element keeps the wrapper. */
  lemma OtherElementKept(out: Output)
    ensures Process("p", "<span>x</span>", out).tagName == out.tagName
  {
    DifferAt("<sp", Opening("p"), 1);
  }
}

=== FILE: strings.dfy ===
/** Text primitives shared by the tag helpers: .NET whitespace, ordinal
    case-insensitive comparison, left trimming, integer formatting and the
    separator-joined lists that the helpers build with a StringBuilder. */
module Strings {

  datatype Option<+T> = None | Some(value: T)

  /** `char.IsWhiteSpace`: the Unicode space, line and paragraph separators
      plus U+0009..U+000D and U+0085. */
  predicate IsWhiteSpace(c: char) {
    || ('\t' <= c <= '\r')
    || c == ' '
    || c == '\U{85}'
    || c == '\U{A0}'
    || c == '\U{1680}'
    || ('\U{2000}' <= c <= '\U{200A}')
    || c == '\U{2028}'
    || c == '\U{2029}'
    || c == '\U{202F}'
    || c == '\U{205F}'
    || c == '\U{3000}'
  }

  /** `string.IsNullOrWhiteSpace` on a non-null string: empty or only whitespace. */
  predicate IsBlank(s: string) {
    forall i | 0 <= i < |s| :: IsWhiteSpace(s[i])
  }

  /** A concatenation is blank exactly when both halves are. */
  lemma BlankConcat(a: string, b: string)
    ensures IsBlank(a + b) <==> IsBlank(a) && IsBlank(b)
  {
    if IsBlank(a + b) {
      forall i | 0 <= i < |a| ensures IsWhiteSpace(a[i]) {
        assert (a + b)[i] == a[i];
      }
      forall i | 0 <= i < |b| ensures IsWhiteSpace(b[i]) {
        assert (a + b)[|a| + i] == b[i];
      }
    }
    if IsBlank(a) && IsBlank(b) {
      forall i | 0 <= i < |a + b| ensures IsWhiteSpace((a + b)[i]) {
        if i >= |a| {
          assert (a + b)[i] == b[i - |a|];
        }
      }
    }
  }

  /** Ordinal upper-casing of one character, restricted to ASCII letters. */
  function UpperChar(c: char): char {
    if 'a' <= c <= 'z' then (c as int - 32) as char else c
  }

  function Upper(s: string): (r: string)
    ensures |r| == |s|
    ensures forall i | 0 <= i < |s| :: r[i] == UpperChar(s[i])
  {
    seq(|s|, i requires 0 <= i < |s| => UpperChar(s[i]))
  }

  /** `StringComparison.OrdinalIgnoreCase` equality. */
  predicate EqualsIgnoreCase(a: string, b: string) {
    Upper(a) == Upper(b)
  }

  /** Two strings of one length that differ, ignoring case, at position `i`
      are different names. */
  lemma DifferAt(a: string, b: string, i: nat)
    requires i < |a| && i < |b|
    requires UpperChar(a[i]) != UpperChar(b[i])
    ensures !EqualsIgnoreCase(a, b)
  {
    assert Upper(a)[i] != Upper(b)[i];
  }

  predicate StartsWithIgnoreCase(s: string, prefix: string) {
    |prefix| <= |s| && EqualsIgnoreCase(s[..|prefix|], prefix)
  }

  predicate OccursAt(s: string, needle: string, k: nat) {
    k + |needle| <= |s| && EqualsIgnoreCase(s[k..k + |needle|], needle)
  }

  /** `string.Contains(needle, OrdinalIgnoreCase)`: a substring test anywhere in `s`. */
  predicate ContainsIgnoreCase(s: string, needle: string) {
    exists k: nat | k <= |s| :: OccursAt(s, needle, k)
  }

  /** `string.TrimStart()`: drops the leading whitespace. */
  function TrimStart(s: string): (r: string)
    ensures |r| <= |s| && r == s[|s| - |r|..]
    ensures IsBlank(s[..|s| - |r|])
    ensures |r| > 0 ==> !IsWhiteSpace(r[0])
  {
    if |s| > 0 && IsWhiteSpace(s[0]) then TrimStart(s[1..]) else s
  }

  /** Leading whitespace never changes what `TrimStart` leaves. */
  lemma {:induction false} TrimStartSkipsBlankPrefix(w: string, s: string)
    requires IsBlank(w)
    ensures TrimStart(w + s) == TrimStart(s)
  {
    if |w| > 0 {
      assert (w + s)[1..] == w[1..] + s;
      TrimStartSkipsBlankPrefix(w[1..], s);
    } else {
      assert w + s == s;
    }
  }

  function DigitChar(d: nat): (c: char)
    requires d < 10
    ensures '0' <= c <= '9'
  {
    "0123456789"[d]
  }

  function NaturalText(n: nat): (r: string)
    decreases n
  {
    if n < 10 then [DigitChar(n)] else NaturalText(n / 10) + [DigitChar(n % 10)]
  }

  /** Invariant-culture text of an integer, as string interpolation of an `int` writes it. */
  function IntegerText(n: int): string {
    if n < 0 then "-" + NaturalText(-n) else NaturalText(n)
  }

  /** The parts with `sep` between consecutive ones (no leading or trailing separator). */
  function Join(parts: seq<string>, sep: char): string
  {
    if |parts| == 0 then ""
    else if |parts| == 1 then parts[0]
    else parts[0] + [sep] + Join(parts[1..], sep)
  }

  /** What a StringBuilder holds after appending each part followed by `sep`. */
  function Terminated(parts: seq<string>, sep: char): string
  {
    if |parts| == 0 then "" else parts[0] + [sep] + Terminated(parts[1..], sep)
  }

  /** Appending one more part to a terminated list extends it at the end. */
  lemma {:induction false} TerminatedSnoc(parts: seq<string>, p: string, sep: char)
    ensures Terminated(parts + [p], sep) == Terminated(parts, sep) + p + [sep]
  {
    if |parts| == 0 {
      assert parts + [p] == [p];
    } else {
      assert (parts + [p])[1..] == parts[1..] + [p];
      TerminatedSnoc(parts[1..], p, sep);
    }
  }

  /** A StringBuilder loop over `parts`, written the way the loop runs: the
      last iteration appends the last part and then `sep`. */
  function Appended(parts: seq<string>, sep: char): string
  {
    if |parts| == 0 then ""
    else Appended(parts[..|parts| - 1], sep) + parts[|parts| - 1] + [sep]
  }

  /** The loop's result is the terminated list of its parts. */
  lemma {:induction false} AppendedIsTerminated(parts: seq<string>, sep: char)
    ensures Appended(parts, sep) == Terminated(parts, sep)
  {
    if |parts| > 0 {
      var init := parts[..|parts| - 1];
      var p := parts[|parts| - 1];
      AppendedIsTerminated(init, sep);
      assert parts == init + [p];
      TerminatedSnoc(init, p, sep);
    }
  }

  /** Appending one more part to a non-empty joined list adds one separator and the part. */
  lemma {:induction false} JoinSnoc(parts: seq<string>, p: string, sep: char)
    requires |parts| > 0
    ensures Join(parts + [p], sep) == Join(parts, sep) + [sep] + p
  {
    if |parts| == 1 {
      assert (parts + [p])[1..] == [p];
    } else {
      assert (parts + [p])[1..] == parts[1..] + [p];
      JoinSnoc(parts[1..], p, sep);
    }
  }

  /** Cutting the trailing separator off a terminated non-empty list gives the joined list. */
  lemma {:induction false} TerminatedTrimIsJoin(parts: seq<string>, sep: char)
    requires |parts| > 0
    ensures |Terminated(parts, sep)| > 0
    ensures Terminated(parts, sep)[..|Terminated(parts, sep)| - 1] == Join(parts, sep)
  {
    var t := Terminated(parts, sep);
    if |parts| == 1 {
      assert Terminated(parts[1..], sep) == "";
      assert t == parts[0] + [sep];
    } else {
      TerminatedTrimIsJoin(parts[1..], sep);
      var rest := Terminated(parts[1..], sep);
      assert t == parts[0] + [sep] + rest;
      assert t[..|t| - 1] == parts[0] + [sep] + rest[..|rest| - 1];
    }
  }

  /** Position of the first `c` in `s`. */
  function IndexOf(s: string, c: char): (i: nat)
    requires c in s
    ensures i < |s| && s[i] == c && c !in s[..i]
  {
    if s[0] == c then 0 else 1 + IndexOf(s[1..], c)
  }

  /** `string.Split(sep)`: the maximal separator-free pieces, in order. */
  function Split(s: string, sep: char): (r: seq<string>)
    decreases |s|
  {
    if sep in s then
      var i := IndexOf(s, sep);
      [s[..i]] + Split(s[i + 1..], sep)
    else [s]
  }

  /** Splitting a joined list of separator-free parts gives the parts back, in order. */
  lemma {:induction false} SplitJoin(parts: seq<string>, sep: char)
    requires |parts| > 0
    requires forall i | 0 <= i < |parts| :: sep !in parts[i]
    ensures Split(Join(parts, sep), sep) == parts
  {
    if |parts| == 1 {
      assert sep !in parts[0];
    } else {
      var p := parts[0];
      var rest := Join(parts[1..], sep);
      var s := p + [sep] + rest;
      assert Join(parts, sep) == s;
      assert s[|p|] == sep;
      assert sep in s;
      var i := IndexOf(s, sep);
      assert i == |p|;
      assert s[..i] == p;
      assert s[i + 1..] == rest;
      SplitJoin(parts[1..], sep);
    }
  }

  /** Total length of the parts. */
  function TotalLength(parts: seq<string>): nat
  {
    if |parts| == 0 then 0 else |parts[0]| + TotalLength(parts[1..])
  }

  /** A terminated list is as long as its parts plus one separator per part. */
  lemma {:induction false} TerminatedLength(parts: seq<string>, sep: char)
    ensures |Terminated(parts, sep)| == TotalLength(parts) + |parts|
  {
    if |parts| > 0 {
      TerminatedLength(parts[1..], sep);
    }
  }

  /** A space-terminated list is blank exactly when every part is blank. */
  lemma {:induction false} TerminatedBlank(parts: seq<string>)
    ensures IsBlank(Terminated(parts, ' ')) <==> forall i | 0 <= i < |parts| :: IsBlank(parts[i])
  {
    if |parts| > 0 {
      TerminatedBlank(parts[1..]);
      var t := Terminated(parts, ' ');
      var rest := Terminated(parts[1..], ' ');
      assert t == parts[0] + " " + rest;
      if IsBlank(t) {
        assert IsBlank(parts[0]) by {
          forall i | 0 <= i < |parts[0]| ensures IsWhiteSpace(parts[0][i]) {
            assert t[i] == parts[0][i];
          }
        }
        assert IsBlank(rest) by {
          forall i | 0 <= i < |rest| ensures IsWhiteSpace(rest[i]) {
            assert t[|parts[0]| + 1 + i] == rest[i];
          }
        }
        forall i | 0 <= i < |parts| ensures IsBlank(parts[i]) {
          if i > 0 {
            assert parts[i] == parts[1..][i - 1];
          }
        }
      }
      if forall i | 0 <= i < |parts| :: IsBlank(parts[i]) {
        assert IsBlank(parts[0]);
        assert forall i | 0 <= i < |parts[1..]| :: IsBlank(parts[1..][i]) by {
          forall i | 0 <= i < |parts[1..]| ensures IsBlank(parts[1..][i]) {
            assert parts[1..][i] == parts[i + 1];
          }
        }
        forall i | 0 <= i < |t| ensures IsWhiteSpace(t[i]) {
          if i < |parts[0]| {
            assert t[i] == parts[0][i];
          } else if i > |parts[0]| {
            assert t[i] == rest[i - |parts[0]| - 1];
          }
        }
      }
    }
  }
}

=== FILE: tag_output.dfy ===
/** The element a tag helper works on: the declared attributes it reads and
    the output it changes. Attribute names compare case-insensitively, as in
    `TagHelperAttributeList`. */
module TagOutput {
  import opened Strings

  /** An attribute value: a string, an integer (`width`, `height`) or null. */
  datatype Value = StringValue(s: string) | IntValue(n: int) | NullValue

  datatype Attr = Attr(name: string, value: Value)

  /** What a helper hands back to the renderer: the attributes, the tag name
      (None once the element itself is not rendered) and whether the whole
      element is suppressed. */
  datatype Output = Output(attrs: seq<Attr>, tagName: Option<string>, suppressed: bool)

  predicate HasName(a: Attr, name: string) {
    EqualsIgnoreCase(a.name, name)
  }

  /** The attributes called `name` (ignoring case), in list order. */
  function Named(attrs: seq<Attr>, name: string): seq<Attr>
  {
    if |attrs| == 0 then []
    else (if HasName(attrs[0], name) then [attrs[0]] else []) + Named(attrs[1..], name)
  }

  lemma {:induction false} NamedAppend(a: seq<Attr>, b: seq<Attr>, name: string)
    ensures Named(a + b, name) == Named(a, name) + Named(b, name)
  {
    if |a| == 0 {
      assert a + b == b;
    } else {
      assert (a + b)[0] == a[0];
      assert (a + b)[1..] == a[1..] + b;
      NamedAppend(a[1..], b, name);
      var h := if HasName(a[0], name) then [a[0]] else [];
      calc {
        Named(a + b, name);
        h + Named(a[1..] + b, name);
        h + (Named(a[1..], name) + Named(b, name));
        (h + Named(a[1..], name)) + Named(b, name);
      }
    }
  }

  /** The value of the first attribute called `name`, as `FirstOrDefault` finds it. */
  function Lookup(attrs: seq<Attr>, name: string): (r: Option<Value>)
    ensures r.None? <==> Named(attrs, name) == []
    ensures r.Some? ==> r.value == Named(attrs, name)[0].value
  {
    if |attrs| == 0 then None
    else if HasName(attrs[0], name) then Some(attrs[0].value)
    else Lookup(attrs[1..], name)
  }

  /** `RemoveAll(name)`: drops every attribute called `name`, keeps the rest in order. */
  function RemoveAll(attrs: seq<Attr>, name: string): (r: seq<Attr>)
    ensures forall m {:trigger Named(r, m)} ::
      Named(r, m) == if EqualsIgnoreCase(m, name) then [] else Named(attrs, m)
  {
    if |attrs| == 0 then []
    else
      var rest := RemoveAll(attrs[1..], name);
      var r := (if HasName(attrs[0], name) then [] else [attrs[0]]) + rest;
      assert forall m {:trigger Named(r, m)} :: Named(r, m) == (if HasName(attrs[0], name) then [] else Named([attrs[0]], m)) + Named(rest, m) by {
        forall m {
          NamedAppend(if HasName(attrs[0], name) then [] else [attrs[0]], rest, m);
        }
      }
      r
  }

  /** What `RemoveAll` keeps was there before and is not called `name`. */
  lemma {:induction false} RemovedAreGone(attrs: seq<Attr>, name: string)
    ensures forall a | a in RemoveAll(attrs, name) :: a in attrs && !HasName(a, name)
  {
    if |attrs| > 0 {
      RemovedAreGone(attrs[1..], name);
    }
  }

  /** The walk behind `SetAttribute`: the first attribute called `a.name` is
      replaced by `a`, later ones are dropped, and `a` is appended when there
      was none. `replaced` records that the first one has been seen. */
  function Replace(attrs: seq<Attr>, a: Attr, replaced: bool): (r: seq<Attr>)
    ensures forall m {:trigger Named(r, m)} ::
      Named(r, m) == if EqualsIgnoreCase(m, a.name) then (if replaced then [] else [a]) else Named(attrs, m)
    ensures RemoveAll(r, a.name) == RemoveAll(attrs, a.name)
  {
    if |attrs| == 0 then
      if replaced then [] else [a]
    else
      var matches := HasName(attrs[0], a.name);
      var head := if matches then (if replaced then [] else [a]) else [attrs[0]];
      var rest := Replace(attrs[1..], a, replaced || matches);
      var r := head + rest;
      assert forall m {:trigger Named(r, m)} :: Named(r, m) == Named(head, m) + Named(rest, m) by {
        forall m {
          NamedAppend(head, rest, m);
        }
      }
      assert RemoveAll(r, a.name) == RemoveAll(head, a.name) + RemoveAll(rest, a.name) by {
        RemoveAllAppend(head, rest, a.name);
      }
      r
  }

  lemma {:induction false} RemoveAllAppend(a: seq<Attr>, b: seq<Attr>, name: string)
    ensures RemoveAll(a + b, name) == RemoveAll(a, name) + RemoveAll(b, name)
  {
    if |a| == 0 {
      assert a + b == b;
    } else {
      var head := if HasName(a[0], name) then [] else [a[0]];
      assert (a + b)[0] == a[0] && (a + b)[1..] == a[1..] + b;
      assert RemoveAll(a + b, name) == head + RemoveAll(a[1..] + b, name);
      RemoveAllAppend(a[1..], b, name);
      assert RemoveAll(a, name) == head + RemoveAll(a[1..], name);
    }
  }

  /** `SetAttribute(name, v)`: afterwards exactly one attribute is called
      `name` and it holds `v`; every other attribute keeps its value and its
      place relative to the others. */
  function SetAttribute(attrs: seq<Attr>, name: string, v: Value): (r: seq<Attr>)
    ensures forall m {:trigger Named(r, m)} ::
      Named(r, m) == if EqualsIgnoreCase(m, name) then [Attr(name, v)] else Named(attrs, m)
    ensures RemoveAll(r, name) == RemoveAll(attrs, name)
  {
    Replace(attrs, Attr(name, v), false)
  }

  /** The attributes called `name` once a write of `m` (if any) went over `previous`. */
  function Outcome(previous: seq<Attr>, name: string, m: Option<string>): seq<Attr> {
    match m
    case None => previous
    case Some(w) => [Attr(name, StringValue(w))]
  }

  /** Every attribute `Named` keeps for `name` also answers to any name equal to it ignoring case. */
  lemma {:induction false} NamedOfNamed(attrs: seq<Attr>, name: string, m: string)
    ensures Named(Named(attrs, name), m) == if EqualsIgnoreCase(m, name) then Named(attrs, name) else []
  {
    if |attrs| > 0 {
      var h := if HasName(attrs[0], name) then [attrs[0]] else [];
      NamedOfNamed(attrs[1..], name, m);
      NamedAppend(h, Named(attrs[1..], name), m);
      if |h| == 1 {
        assert Named(h, m) == (if HasName(attrs[0], m) then [attrs[0]] else []) + Named(h[1..], m);
        assert h[1..] == [];
      } else {
        assert h == [];
      }
    }
  }

  /** Names equal ignoring case pick out the same attributes. */
  lemma {:induction false} NamedIgnoresCase(attrs: seq<Attr>, a: string, b: string)
    requires EqualsIgnoreCase(a, b)
    ensures Named(attrs, a) == Named(attrs, b)
  {
    if |attrs| > 0 {
      NamedIgnoresCase(attrs[1..], a, b);
    }
  }
}
